=== FILE: README.md ===
# Lex bot deployment: a verified model

`deploy_lex_bot.js` deploys an Amazon Lex V2 bot from a JSON bot document.
It validates the document, then finds or creates the bot `<stage>-<name>` and
makes sure its draft locale exists. It reconciles the intents, builds the
locale and snapshots a numbered version. Next it points the challenger alias
at that version and runs the document's test utterances against the
challenger. Only when every test passes does it point the production alias
(with conversation logging) at the version and grant the contact-center
instance access to it.

This project models that pipeline in Dafny and proves what it promises.

The remote services are one abstract class, `Remote.BotService`. Its fields
hold:

- the bots;
- the draft locale;
- the intents by exact name;
- the version snapshots;
- the aliases by exact name;
- the log groups and the access grants.

Every management request appends one `Call` to a `trace`. Ordering, gating
and "no request before X" properties are stated over the part of the trace a
step added (`Since(before, after)`).

The status record the script fills in (`botConfig.status`) is the class
`Status.DeploymentStatus`; its fields are written in place, as in the script.

The describe calls the script polls are not part of the service. Each poll
receives the finite sequence of observations its describe calls would return
(`Common.Observation`). The inference service is a function `recognize` from
test text to interpretations.

Modules, one file each:

| module | file | contents |
|---|---|---|
| `Common` | common.dfy | the bot document, the environment, errors |
| `Text` | text.dfy | `toLowerCase`, `getBotName`, `createBotAliasArn` |
| `Polling` | polling.dfy | the status polls and `isBotLocaleAvailable` / `isBotAvailable` |
| `Validator` | validator.dfy | `verifyBotConfig` |
| `Remote` | remote.dfy | the abstract remote service and its request log |
| `Status` | status.dfy | the deployment status record |
| `Provisioning` | provisioning.dfy | `getBot`, `createBot`, `createBotLocale`, `buildBot`, `createBotVersion` |
| `Intents` | intents.dfy | `updateIntents`, `createIntent`, `updateIntent` |
| `Aliases` | aliases.dfy | `updateAlias`, `createBotAlias`, `updateBotAlias`, `setupLogging`, `createLogGroup` |
| `Testing` | testing.dfy | `testBot` |
| `Deploy` | deploy.dfy | `deployBot` |

`deployBot` is one function in the script. Here it is cut into phases to keep
each proof small:

- `Deploy.EnsureBot`: find or create the bot.
- `Deploy.PrepareDraft`: the locale, the intents, the build and the version.
- `Deploy.Challenge`: point the challenger alias at the version and run the tests against it.
- `Deploy.Release`: the production alias and the access grant.

`Deploy.Promote`, `Deploy.Deliver` and `Deploy.Rollout` chain these phases in
the script's order.

The order of the requests is stated with `Deploy.StepOf`. It numbers the steps
in the order `deployBot` runs them: the lookup, the creation, the locale, the
intents, the build, the version, the challenger alias, the production alias,
the grant. `Deploy.InStepOrder` says that no request of a later step comes
before a request of an earlier step. Alias listings and log group requests
serve several steps and are not numbered.

`Deploy.DraftError`, `Deploy.ChallengeReport`, `Deploy.PromotionReport`,
`Deploy.DeliveryReport` and `Deploy.RunReport` name the error a run ends with.
It is the error of the first step that failed.

## Model

| member | source | states |
|---|---|---|
| Status.DeploymentStatus.constructor | deploy_lex_bot.js:22-24 | a fresh status holds only the full bot name; nothing is verified, created or recorded yet |
| Text.Lower | deploy_lex_bot.js:102-113 | `toLowerCase` keeps the length and folds each character on its own |
| Text.LowerIdempotent | deploy_lex_bot.js:102-113 | folding an already folded name or utterance changes nothing |
| Text.GetBotName | deploy_lex_bot.js:620-623 | the full name is the stage, a `-`, then the configured name |
| Text.BotNameRoundTrip | deploy_lex_bot.js:620-623 | the configured name can be recovered from the full name for a known stage |
| Text.BotNameInjective | deploy_lex_bot.js:620-623 | two configured names give the same full name in one stage only if they are equal |
| Text.CreateBotAliasArn | deploy_lex_bot.js:1029-1036 | the ARN starts with `arn:aws:lex:` and ends with the alias id |
| Text.AliasArnNamesAlias | deploy_lex_bot.js:1033 | the text after the ARN's last `/` is exactly the alias id |
| Text.LastSegmentAfterSlash | deploy_lex_bot.js:1033 | the text after the last `/` of `p/t` is `t` when `t` has no `/` |
| Polling.Judge | deploy_lex_bot.js:193-206 | a poll stopped by an observation succeeds iff that status is a success status of the poll site |
| Polling.Settle | deploy_lex_bot.js:193-206 | a poll never counts more waits than there are observations |
| Polling.SettleMeaning | deploy_lex_bot.js:193-206 | a poll stops at the FIRST terminal observation, counts one wait per earlier one, and is judged by that observation alone; running out of observations is `NeverSettled`, and only that |
| Polling.Poll | deploy_lex_bot.js:473-484 | the `while` loop over describe results computes exactly `Settle` |
| Polling.SettleIgnoresLater | deploy_lex_bot.js:517-527 | observations after the terminal one never change the outcome |
| Polling.IsBotLocaleAvailable | deploy_lex_bot.js:763-782 | answers true exactly for Failed, Built and NotBuilt, the statuses that end the locale poll; a describe error answers false |
| Polling.IsBotAvailable | deploy_lex_bot.js:787-799 | answers true exactly when the bot's status is Available, the only status that ends the bot poll |
| Polling.LocaleWatchIsAvailability | deploy_lex_bot.js:763-785 | the locale poll stops exactly when `isBotLocaleAvailable` answers true (Failed, Built, NotBuilt; a describe error is "not yet"), and then always succeeds |
| Polling.BotWatchIsAvailability | deploy_lex_bot.js:787-802 | the bot poll succeeds exactly on Available; only a describe error ends it otherwise |
| Polling.FailedIsAsymmetric | deploy_lex_bot.js:769 | Failed counts as an available locale, but ends a build as a failure |
| Polling.PendingPendingAvailable | deploy_lex_bot.js:193-206 | two pending statuses then Available: two waits between the three describes, then success |
| Validator.ValidHasDistinctNames | deploy_lex_bot.js:101-109 | names unique up to case are unique exactly, the key the remote service uses |
| Validator.DistinctSnoc | deploy_lex_bot.js:104-110 | adding one entry keeps the entries distinct up to case iff its folding was not yet in the set |
| Validator.FoldedSnoc | deploy_lex_bot.js:110 | the set of foldings grows by exactly the new folding |
| Validator.NameClashInvalidates | deploy_lex_bot.js:104-107 | a folded name already seen makes the whole document invalid |
| Validator.UtteranceClashInvalidates | deploy_lex_bot.js:114-117 | a folded utterance already seen, in this intent or an earlier one, makes the document invalid |
| Validator.CheckUtterances | deploy_lex_bot.js:111-121 | the inner pass either extends the seen set by this intent's utterances, keeping them distinct, or fails with the intent's name and a clashing utterance, and the document is invalid |
| Validator.VerifyBotConfig | deploy_lex_bot.js:96-125 | passes iff no two names and no two utterances anywhere in the bot are equal after lower-casing; a failure names the second occurrence, and everything before it was valid: for a duplicate utterance, the intent names up to and including its intent are distinct and so are the utterances before it |
| Remote.Matching | deploy_lex_bot.js:633-645 | the exact-name filter keeps exactly the summaries with that name |
| Remote.BotService.ListBotsNamed | deploy_lex_bot.js:645 | lists the bots with exactly that name and logs the request |
| Remote.BotService.CreateBotNamed | deploy_lex_bot.js:742 | adds a bot with a fresh id: no bot, intent or alias had that id; the service stays `Valid` (every id lies below the next one it mints) |
| Remote.BotService.CreateBotLocale | deploy_lex_bot.js:707 | sets the draft locale settings |
| Remote.BotService.ListIntentSummaries | deploy_lex_bot.js:858-868 | returns the current intents (the pages concatenated) |
| Remote.BotService.CreateIntentNamed | deploy_lex_bot.js:677 | adds an intent with a fresh id, the description and no utterances: no bot, intent or alias had that id; the service stays `Valid` (every id lies below the next one it mints) |
| Remote.BotService.UpdateIntentById | deploy_lex_bot.js:608 | replaces the description and the whole utterance list of that intent, keeps its id, and keeps the service `Valid` |
| Remote.BotService.BuildBotLocale | deploy_lex_bot.js:469 | logs the build request |
| Remote.BotService.CreateBotVersion | deploy_lex_bot.js:511 | appends a snapshot of the draft intents; the version number is the snapshot count |
| Remote.BotService.ListBotAliases | deploy_lex_bot.js:398 | returns the aliases by name |
| Remote.BotService.CreateBotAlias | deploy_lex_bot.js:189 | adds the alias with a fresh id and the request's settings: no bot, intent or alias had that id; the service stays `Valid` (every id lies below the next one it mints) |
| Remote.BotService.UpdateBotAlias | deploy_lex_bot.js:246 | replaces the settings of the alias, keeps its id, and keeps the service `Valid` |
| Remote.BotService.DescribeLogGroups | deploy_lex_bot.js:344-361 | lists every group whose name starts with the prefix |
| Remote.BotService.CreateLogGroup | deploy_lex_bot.js:370 | adds the group |
| Remote.BotService.GrantAccess | deploy_lex_bot.js:1049-1113 | records the access grant on that ARN |
| Provisioning.LookupBot | deploy_lex_bot.js:645-653 | a bot is found iff exactly one summary has the full name, and it is that summary |
| Provisioning.TwoMatches | deploy_lex_bot.js:647 | two bots under one name give at least two matches |
| Provisioning.FoundIsUnique | deploy_lex_bot.js:645-653 | a bot that the lookup finds sits at the only position in the listing with that name |
| Provisioning.UniqueIsFound | deploy_lex_bot.js:645-653 | a name listed at exactly one position is found, and the lookup returns the summary at that position |
| Provisioning.AmbiguousNameIsNotFound | deploy_lex_bot.js:647-653 | two bots under one name read as "no bot" |
| Provisioning.GetBot | deploy_lex_bot.js:628-663 | returns `LookupBot` of the remote bots, after one list request |
| Provisioning.CreateBot | deploy_lex_bot.js:728-761 | adds the bot under an id no bot, intent or alias had, and records that id in the status before polling; succeeds iff the poll ends Available |
| Provisioning.CreateBotLocale | deploy_lex_bot.js:690-726 | sets the locale from the document; fails only when the poll never settles |
| Provisioning.BuildBot | deploy_lex_bot.js:459-494 | one build request; succeeds iff the poll ends on Built |
| Provisioning.CreateBotVersion | deploy_lex_bot.js:496-539 | snapshots the draft intents; succeeds iff the poll ends on Available and returns the new version |
| Intents.CreateMissingIntents | deploy_lex_bot.js:417-429 | creates exactly the configured intents missing by exact name; existing intents are untouched |
| Intents.ReplaceIntents | deploy_lex_bot.js:431-446 | passes iff every configured name is in the re-listed intents; then each configured intent has exactly its configured description and utterances, in order; ids and other intents are unchanged; a missing name is reported |
| Intents.UpdateIntents | deploy_lex_bot.js:411-454 | always passes, because the first pass creates every missing intent before the second looks them up; afterwards every configured intent exists with exactly its configured description and utterances; an intent is created iff it was configured and missing; ids survive; unconfigured intents are untouched; run again on a service it already reconciled, it sends no `createIntent` and changes no intent |
| Aliases.LoggingFor | deploy_lex_bot.js:282-321 | log settings exist iff the alias is the production alias; the group is `/aws/lex/<full name>`, which is also the S3 prefix; the CloudWatch prefix is the alias name |
| Aliases.AliasRequestFor | deploy_lex_bot.js:168-186 | the request names the alias and the version, and carries log settings iff the alias is the production alias |
| Aliases.ReconcileAlias | deploy_lex_bot.js:136-150 | the alias of that exact name takes the new settings and keeps its id, or is added with a fresh id; other aliases are unchanged |
| Aliases.ReconcileAliasIdempotent | deploy_lex_bot.js:136-150 | reconciling the same request twice equals reconciling it once |
| Aliases.ReconcileAliasKeepsId | deploy_lex_bot.js:145-150 | a second request for the same alias creates nothing and keeps the first id |
| Aliases.LogGroupsAsWritten | deploy_lex_bot.js:343-377 | the script's existence test by prefix: the group stays missing iff it was missing and a group starting with its name exists |
| Aliases.PrefixHidesMissingGroup | deploy_lex_bot.js:343-366 | with only `/aws/lex/dev-SalesSupport` present, `/aws/lex/dev-Sales` is not created |
| Aliases.AsWrittenAgreesWithoutPrefixClash | deploy_lex_bot.js:343-366 | without a longer group name sharing the prefix, the script as written and the exact test agree |
| Aliases.CreateLogGroup | deploy_lex_bot.js:338-384 | with the exact test: afterwards the group exists, and it is created iff it was missing |
| Aliases.SetupLogging | deploy_lex_bot.js:277-333 | for the production alias, records the log settings in the status and makes the group exist; for any other alias, changes nothing and sends nothing |
| Aliases.CreateBotAlias | deploy_lex_bot.js:164-218 | adds the alias under an id no bot, intent or alias had, with the request; succeeds iff the poll ends Available; a non-production alias sends no log group request |
| Aliases.UpdateBotAlias | deploy_lex_bot.js:220-275 | replaces the alias's settings under its id; succeeds iff the poll ends Available; a non-production alias sends no log group request |
| Aliases.UpdateAlias | deploy_lex_bot.js:130-159 | the aliases become `ReconcileAlias` of the request; an alias is created iff none has exactly that name, and then under an id nothing had; the returned id is the alias's id; every alias write carries logging iff it is for the production alias; a non-production alias sends no log group request |
| Testing.Classify | deploy_lex_bot.js:937-963 | success iff the top intent is the intent under test and its confidence is present and strictly above 0.7; a mismatch reports the predicted intent; an empty response or a missing confidence aborts |
| Testing.ThresholdIsExclusive | deploy_lex_bot.js:941 | a correct intent at exactly 0.7 fails and just above passes |
| Testing.NoFailuresIffAllSucceed | deploy_lex_bot.js:939-963 | when no test aborts, an intent has no failures iff all its tests succeed |
| Testing.FailuresInStep | deploy_lex_bot.js:939-963 | scoring one more test adds one failure exactly when that test fails |
| Testing.NoneFailedIffAllPass | deploy_lex_bot.js:903-975 | when no test aborts, the total of the per-intent failures is zero iff every test of every intent succeeds |
| Testing.TestIntent | deploy_lex_bot.js:916-966 | an abort happens iff some test of the intent aborts, and then it names the first aborting test (every earlier test ran); otherwise the tally: success + fail = number of tests, fail counts the failing tests and equals the number of problems, and fail = 0 iff every test succeeds |
| Testing.TestBot | deploy_lex_bot.js:903-981 | passes iff every test of every intent succeeds; the total failures is the sum of the per-intent counts; throws `TestsFailed` iff that total is positive and nothing aborted; throws `TestAborted` iff some test aborts, naming the first aborting test, after every earlier intent ran without abort |
| Deploy.EnsureBot | deploy_lex_bot.js:31-41 | the requests are exactly the lookup, then `createBot` iff the lookup found none; it succeeds iff the bot was found or its creation poll ended Available; `status.botId` is the found id or the new one, even when the creation poll fails; on success `status.created` says whether the bot was created |
| Deploy.EnsureLocale | deploy_lex_bot.js:43-46 | `createBotLocale` is the only request, sent iff the probe did not find the locale usable; the step succeeds iff the locale was usable or its creation settled |
| Deploy.BuildAndSnapshot | deploy_lex_bot.js:51-56 | the build request, then the version request only if the build ended Built; succeeds iff the build ended Built and the version Available, with the version a snapshot of the intents; a failure is the build's error when the build did not end Built, and the version's otherwise |
| Deploy.DraftConcat | deploy_lex_bot.js:43-56 | the locale, intent and build stretches together are draft requests only, in step order (the locale, then the intents, then the build, then the version); intent, build and version requests follow a usable locale, the version a Built build; the locale is created iff the probe did not find it |
| Deploy.PrepareDraft | deploy_lex_bot.js:43-56 | succeeds iff the locale is usable, the build ends Built and the version Available, and a failure is the error of the first of these that did not hold (`DraftError`); the locale is created iff the probe did not find it usable; no bot, alias or grant request is sent; the requests are in step order and no intent request comes after the build request; each request follows the success of the steps before it; on success the intents are reconciled and the version is a snapshot of them |
| Deploy.Challenge | deploy_lex_bot.js:58-73 | succeeds iff the challenger poll ends Available and every test passes; a failure is the challenger alias's error if its poll failed, and otherwise the test run's, an abort exactly when some test aborts; once the challenger poll ended Available, the challenger alias points at the recorded version and the id recorded for the tests is its own id; its requests are challenger alias writes, carrying logging only if it is also the production alias; a challenger that is not the production alias sends no log group request and leaves the production alias entry, the log groups and the grants as they were |
| Deploy.Release | deploy_lex_bot.js:74-82 | only production alias writes (with logging), then the grant; succeeds iff the production poll ends Available, and a failure is the production alias's error; a grant is sent only on success, so a failed production poll leaves the grants as they were; on success the production alias points at the version and logs to an existing group, and access is granted on its ARN |
| Deploy.Promote | deploy_lex_bot.js:58-82 | succeeds iff the challenger poll ended Available, every test passed and the production poll ended Available, and a failure is the error of the first of these that did not hold (`PromotionReport`); the challenger alias writes, then the production alias writes, then the grant, which is sent only after the production alias became available; nothing is sent to the production alias or its log group, and no access is granted, unless every test passed; when the gate is not cleared, the production alias entry, the log groups and the grants are as they were |
| Deploy.StepOrderConcat | deploy_lex_bot.js:18-92 | two stretches, each in step order, where the first ends at or before the step the second begins with, are in step order together |
| Deploy.DraftStepOrder | deploy_lex_bot.js:43-56 | the locale creation, the intent requests, then the build and version requests are in step order, within the draft steps |
| Deploy.ReleaseStretch | deploy_lex_bot.js:74-82 | production alias writes followed by the grant are in step order, the grant last |
| Deploy.PromotionStretch | deploy_lex_bot.js:58-82 | the challenger stretch followed by the release stretch is in step order, and its only grants are those of the release stretch |
| Deploy.DraftThenPromotionConcat | deploy_lex_bot.js:43-82 | draft requests followed by promotion requests never have a draft request after a promotion request |
| Deploy.DeliveryConcat | deploy_lex_bot.js:43-82 | a draft stretch and a promotion stretch that runs only on a usable locale, a Built build and an Available version make a delivery: no bot request, drafts before promotions, the requests in step order, each request after the success of the steps before it, the grant only after an available production alias, the gate and the logging rule kept |
| Deploy.Deliver | deploy_lex_bot.js:43-82 | succeeds iff every step succeeded, the gate cleared and the production poll ended Available; a failure is the error of the first step that failed (`DeliveryReport`); no bot request; the requests are in step order, and every draft request precedes every promotion request; the version is requested only after a Built build, and no alias, log group or grant request is sent before a usable locale, a Built build and an Available version; the grant only after the production alias became available; production writes, log group requests and the grant only after the challenger poll ended Available and every test passed, and without that the production alias entry, the log groups and the grants are unchanged; on success the intents are reconciled and both aliases are on the snapshot |
| Deploy.CreationsInRun | deploy_lex_bot.js:31-41 | after a lookup stretch, `createBot` for the full name occurs exactly once if the lookup found none and never otherwise, and no other `createBot` occurs |
| Deploy.DraftThenPromotionAfterLookup | deploy_lex_bot.js:31-82 | putting the lookup in front keeps every draft request before every promotion request |
| Deploy.ComposeRun | deploy_lex_bot.js:31-82 | the lookup stretch followed by a delivery of an available bot starts with the lookup and keeps the creation count, the step order, the draft-then-promotion ordering, the staging and the gate over the whole run |
| Deploy.Rollout | deploy_lex_bot.js:31-82 | the lookup comes first; `createBot` occurs exactly once iff none was found; nothing past the lookup unless the bot is available; the requests are in step order; drafts before promotions, each step after the success of the steps before it; the gate and the logging rule hold over every request; succeeds iff the bot is available, every step succeeded, the gate cleared and the production poll ended Available; a failure is the bot's error when the bot is not available, and otherwise the error of the first later step that failed (`RunReport`); `status.botId` is the found or the new id; once the bot is available, `status.created` says whether the lookup found none; without the gate the production alias entry, the log groups and the grants are unchanged |
| Deploy.DeployBot | deploy_lex_bot.js:18-92 | an invalid document fails with a duplicate error before any request and leaves the remote unchanged; `status.verified` iff valid; succeeds iff the document is valid, the bot is available, every step succeeded, the gate cleared and the production poll ended Available; for a valid document a failure is the error of the first step that failed: the bot, the locale, the build, the version, the challenger alias, the tests (an abort exactly when some test aborts), the production alias; `createBot` exactly once iff valid and not found, never otherwise; `status.created` iff valid, not found and the new bot became available; `status.botId` is the found or the new id for a valid document; nothing past the lookup unless the bot is available; the requests follow the order of the steps: no intent request after the build, no challenger write after a production write when the names differ, the grant after every alias write; every draft request before every promotion request; the version only after a Built build; alias, log group and grant requests only after a usable locale, a Built build and an Available version; the grant only after the production alias became available; production writes, log group requests and the grant only after the challenger poll ended Available and every test passed, and without that the production alias entry, the log groups and the grants are unchanged; a successful run leaves both aliases on the version, production logging to an existing group, and access granted on its ARN |

## Left out

- The AWS SDK clients are replaced by `Remote.BotService`. Only the effect each request has on the modelled state is kept. The request fields the script sends but nothing reads back are not modelled: the bot's TTL, role and data-privacy flags, the locale's voice and threshold beyond their record, and sentiment settings beyond their record.
- Errors returned by the management calls themselves are not modelled. Every request succeeds; only describe results (in the polls) can fail. `listBots` and `createIntent` failures, for example, are absent.
- `main`: argument parsing, file reading, JSON parsing, credential profiles and the process exit code.
- `sleepFor` and every timing detail. A poll runs over a finite sequence of observations; a sequence without a terminal status gives `NeverSettled`. The liveness of the unbounded `while` loops is not modelled.
- `console.log` output and `JSON.stringify` of the status and of the results.
- `uuidv4` session ids and `deleteSession`. Each test is a call of `recognize` on its text. `deleteSession` swallows its own errors, so it cannot change the outcome.
- Pagination of `listIntents` and `describeLogGroups` is modelled as one listing that holds every page.
- `listBotAliases` (deploy_lex_bot.js:398) reads only the first page of aliases, whereas `Remote.BotService.ListBotAliases` returns every alias. With more aliases than one page holds, the script can miss an existing alias and try to create it again; the model does not capture that.
- `grantConnectAccess`: the policy document and the describe / update / create fallback are reduced to recording a grant on the ARN.
- Confidence scores are `real`; only the strict comparison with 0.7 is modelled.
- Aliases.SetupLogging: the pipeline uses the corrected `Aliases.CreateLogGroup`, which tests for a group of exactly the name. "Makes the group exist", and the "logs to an existing group" part of `Deploy.Promoted`, hold for that corrected script only. `Aliases.PrefixHidesMissingGroup` shows they fail for the script as written when another group's name extends the group's name (see Findings).
- Testing.TestBot: the alias the tests are sent to is not a parameter. `recognize` stands for the answers of the challenger alias. `Deploy.Challenge` records that alias's id, and `Deploy.Promoted` ties the recorded id to the challenger alias; the model does not check that the recognizer is the one behind that id.
- Text.Lower: folds ASCII letters only, not the full Unicode case mapping of `toLowerCase`.
- `describeBot` after `createBot` returns the bot summary; the full description is not kept.
- The `describeBot` that `createBotLocale` returns (deploy_lex_bot.js:716) is not modelled: the model's locale step cannot fail after the locale became usable, whereas the script's can, when that describe rejects.
- The challenger and production aliases may have the same name. The production-write and log-group gates in `Deploy.Disciplined`, and the "production side unchanged" clauses of `Deploy.Promote`, `Deploy.Deliver`, `Deploy.Rollout` and `Deploy.DeployBot`, are then stated only for distinct names, because the challenger write is itself a production write that happens before the tests.
- The draft locale, the intents and the aliases are single fields of `Remote.BotService`, not kept per bot. One run works on one bot, so this changes nothing the script can observe within a run.
- The remote ids are natural numbers minted by the service. They are rendered into the ARN as decimal text, whereas the real service issues alphanumeric ids.
- Failure of the script's own reporting (the TypeError on an empty recognizer response, or on a matching intent without a confidence) is modelled as `Testing.Classification.Aborted`, ending the test run with `TestAborted`.

## Findings

| source | as written | input that shows it | evidently intended | confidence | as-written member | corrected member |
|---|---|---|---|---|---|---|
| deploy_lex_bot.js:343-366 | `createLogGroup` lists the groups whose name starts with `/aws/lex/<full name>` and skips the creation if any is listed | stage `dev`: deploy `SalesSupport`, then `Sales`; `/aws/lex/dev-SalesSupport` is listed, so `/aws/lex/dev-Sales` is never created, yet the production alias of `dev-Sales` is configured to log into it | create the group unless a group of exactly that name exists | medium, not executed | Aliases.LogGroupsAsWritten (counterexample: Aliases.PrefixHidesMissingGroup) | Aliases.CreateLogGroup |

=== FILE: aliases.dfy ===
/**
 * `updateAlias` with `createBotAlias`, `updateBotAlias`, `setupLogging` and
 * `createLogGroup`: an alias is looked up by exact name, created or updated
 * in place to point at the new version, and then polled until it is
 * Available or Failed. Conversation logging is attached only to the
 * production alias.
 */
module Aliases {

  import opened Common
  import opened Remote
  import opened Polling
  import opened Status

  /** `setupLogging`'s decision: log destinations exist exactly for the production alias. */
  function LoggingFor(aliasName: string, bot: BotConfig, env: EnvConfig, fullBotName: string): (r: Option<LogSettings>)
    ensures r.Some? <==> aliasName == bot.productionAlias
    ensures r.Some? ==>
      && r.value.logGroupName == "/aws/lex/" + fullBotName
      && r.value.s3LogPrefix == r.value.logGroupName
      && r.value.cloudWatchLogPrefix == aliasName
      && r.value.s3LogBucket == env.conversationalLogsBucketArn
  {
    if aliasName == bot.productionAlias then
      var logGroupName := "/aws/lex/" + fullBotName;
      var cloudWatchArn := "arn:aws:logs:" + env.region + ":" + env.accountNumber + ":log-group:" + logGroupName;
      Some(LogSettings(logGroupName, cloudWatchArn, aliasName, env.conversationalLogsBucketArn, "/aws/lex/" + fullBotName))
    else
      None
  }

  /** The request body `createBotAlias` and `updateBotAlias` send. */
  function AliasRequestFor(aliasName: string, version: Id, bot: BotConfig, env: EnvConfig, fullBotName: string): (req: AliasRequest)
    ensures req.botAliasName == aliasName && req.botVersion == version
    ensures req.logging.Some? <==> aliasName == bot.productionAlias
  {
    AliasRequest(aliasName, version, bot.description, bot.localeId, bot.detectSentiment,
                 LoggingFor(aliasName, bot, env, fullBotName))
  }

  /**
   * The aliases after reconciling `req`: an alias of that exact name keeps
   * its id and takes the new settings; otherwise a new alias gets `freshId`.
   */
  function ReconcileAlias(aliases: map<string, RemoteAlias>, req: AliasRequest, freshId: Id): (r: map<string, RemoteAlias>)
    ensures r.Keys == aliases.Keys + {req.botAliasName}
    ensures r[req.botAliasName].settings == req
    ensures req.botAliasName in aliases ==> r[req.botAliasName].botAliasId == aliases[req.botAliasName].botAliasId
    ensures req.botAliasName !in aliases ==> r[req.botAliasName].botAliasId == freshId
    ensures forall n :: n in aliases && n != req.botAliasName ==> r[n] == aliases[n]
  {
    var id := if req.botAliasName in aliases then aliases[req.botAliasName].botAliasId else freshId;
    aliases[req.botAliasName := RemoteAlias(id, req)]
  }

  /** Reconciling the same request twice is the same as once: the second call creates nothing. */
  lemma ReconcileAliasIdempotent(aliases: map<string, RemoteAlias>, req: AliasRequest, freshId: Id, laterId: Id)
    ensures ReconcileAlias(ReconcileAlias(aliases, req, freshId), req, laterId) == ReconcileAlias(aliases, req, freshId)
  {
  }

  /** Re-pointing an alias at another version keeps the id it got the first time. */
  lemma ReconcileAliasKeepsId(aliases: map<string, RemoteAlias>, first: AliasRequest, second: AliasRequest, freshId: Id, laterId: Id)
    requires first.botAliasName == second.botAliasName
    ensures var once := ReconcileAlias(aliases, first, freshId);
      && ReconcileAlias(once, second, laterId).Keys == once.Keys
      && ReconcileAlias(once, second, laterId)[second.botAliasName].botAliasId == once[first.botAliasName].botAliasId
  {
  }

  /**
   * The log groups after `createLogGroup` as the script writes it: the
   * existence test lists the groups whose name STARTS WITH `name` and skips
   * the creation when that list is non-empty, so a longer name sharing the
   * prefix passes for the group itself.
   */
  function LogGroupsAsWritten(groups: set<string>, name: string): (r: set<string>)
    ensures groups <= r <= groups + {name}
    ensures name !in r <==> name !in groups && exists g :: g in groups && name <= g
  {
    if exists g :: g in groups && name <= g then groups else groups + {name}
  }

  /** Deploying `dev-Sales` after `dev-SalesSupport`: the Sales log group is never created. */
  lemma PrefixHidesMissingGroup()
    ensures "/aws/lex/dev-Sales" !in LogGroupsAsWritten({"/aws/lex/dev-SalesSupport"}, "/aws/lex/dev-Sales")
  {
    assert "/aws/lex/dev-Sales" <= "/aws/lex/dev-SalesSupport";
  }

  /** Without a longer name sharing the prefix, the script as written and the corrected step agree. */
  lemma AsWrittenAgreesWithoutPrefixClash(groups: set<string>, name: string)
    requires forall g :: g in groups && name <= g ==> g == name
    ensures LogGroupsAsWritten(groups, name) == groups + {name}
  {
    if name !in groups {
      assert !exists g :: g in groups && name <= g;
    }
  }

  /**
   * `createLogGroup` with the existence test made exact: the group is
   * created unless a group of exactly that name is listed.
   */
  method CreateLogGroup(svc: BotService, name: string)
    modifies svc`logGroups, svc`trace
    ensures svc.logGroups == old(svc.logGroups) + {name}
    ensures old(svc.trace) <= svc.trace
    ensures forall c :: c in Since(old(svc.trace), svc.trace) ==> c == Call.DescribeLogGroups(name) || c == Call.CreateLogGroup(name)
    ensures Call.CreateLogGroup(name) in Since(old(svc.trace), svc.trace) <==> name !in old(svc.logGroups)
  {
    ghost var t0 := svc.trace;
    var logGroups := svc.DescribeLogGroups(name);
    if name !in logGroups {
      svc.CreateLogGroup(name);
      assert Since(t0, svc.trace) == [Call.DescribeLogGroups(name), Call.CreateLogGroup(name)];
    } else {
      assert Since(t0, svc.trace) == [Call.DescribeLogGroups(name)];
    }
  }

  /** `setupLogging`: for the production alias, records the destinations and makes sure the log group exists. */
  method SetupLogging(svc: BotService, status: DeploymentStatus, aliasName: string, bot: BotConfig, env: EnvConfig)
    returns (logging: Option<LogSettings>)
    modifies svc`logGroups, svc`trace, status`logging
    ensures logging == LoggingFor(aliasName, bot, env, status.fullBotName)
    ensures logging.Some? ==> status.logging == logging
    ensures logging.Some? ==> svc.logGroups == old(svc.logGroups) + {logging.value.logGroupName}
    ensures logging.None? ==>
      status.logging == old(status.logging) && svc.logGroups == old(svc.logGroups) && svc.trace == old(svc.trace)
    ensures old(svc.trace) <= svc.trace
    ensures forall c :: c in Since(old(svc.trace), svc.trace) ==> c.DescribeLogGroups? || c.CreateLogGroup?
  {
    logging := LoggingFor(aliasName, bot, env, status.fullBotName);
    if logging.Some? {
      status.logging := logging;
      CreateLogGroup(svc, logging.value.logGroupName);
    }
  }

  /** `createBotAlias`: creates the alias, then waits for Available or Failed. */
  method CreateBotAlias(svc: BotService, status: DeploymentStatus, version: Id, aliasName: string,
                        bot: BotConfig, env: EnvConfig, feed: seq<Observation>)
    returns (r: Result<Id, DeployError>)
    requires svc.Valid()
    modifies svc`aliases, svc`nextId, svc`logGroups, svc`trace, status`logging
    ensures svc.Valid()
    ensures svc.aliases ==
      old(svc.aliases)[aliasName := RemoteAlias(old(svc.nextId), AliasRequestFor(aliasName, version, bot, env, status.fullBotName))]
    // The new alias's id is fresh: no bot, intent or alias had it.
    ensures old(svc.Unused(svc.nextId))
    ensures svc.nextId == old(svc.nextId) + 1
    ensures r.Ok? <==> Settle(AliasWatch, feed).verdict.Ready?
    ensures r.Ok? ==> r.value == old(svc.nextId)
    ensures r.Err? ==> r.error == ProvisioningFailed(AliasResource(aliasName), Settle(AliasWatch, feed).verdict)
    ensures status.logging == if aliasName == bot.productionAlias then LoggingFor(aliasName, bot, env, status.fullBotName) else old(status.logging)
    ensures aliasName == bot.productionAlias ==> "/aws/lex/" + status.fullBotName in svc.logGroups
    ensures aliasName != bot.productionAlias ==> svc.logGroups == old(svc.logGroups)
    ensures old(svc.trace) <= svc.trace
    ensures forall c :: c in Since(old(svc.trace), svc.trace) ==>
      c.DescribeLogGroups? || c.CreateLogGroup? || c == Call.CreateAlias(aliasName, aliasName == bot.productionAlias)
    ensures aliasName != bot.productionAlias ==>
      forall c :: c in Since(old(svc.trace), svc.trace) ==> !c.DescribeLogGroups? && !c.CreateLogGroup?
    ensures Call.CreateAlias(aliasName, aliasName == bot.productionAlias) in Since(old(svc.trace), svc.trace)
  {
    ghost var t0 := svc.trace;
    var logging := SetupLogging(svc, status, aliasName, bot, env);
    var request := AliasRequest(aliasName, version, bot.description, bot.localeId, bot.detectSentiment, logging);
    ghost var t1 := svc.trace;
    var id := svc.CreateBotAlias(request);
    SinceChain(t0, t1, svc.trace);
    var poll := Poll(AliasWatch, feed);
    if poll.verdict.Ready? {
      r := Ok(id);
    } else {
      r := Err(ProvisioningFailed(AliasResource(aliasName), poll.verdict));
    }
  }

  /** `updateBotAlias`: points the existing alias at the new settings, then waits for Available or Failed. */
  method UpdateBotAlias(svc: BotService, status: DeploymentStatus, version: Id, aliasId: Id, aliasName: string,
                        bot: BotConfig, env: EnvConfig, feed: seq<Observation>)
    returns (r: Outcome<DeployError>)
    requires svc.Valid()
    requires aliasName in svc.aliases && svc.aliases[aliasName].botAliasId == aliasId
    modifies svc`aliases, svc`logGroups, svc`trace, status`logging
    ensures svc.Valid()
    ensures svc.aliases ==
      old(svc.aliases)[aliasName := RemoteAlias(aliasId, AliasRequestFor(aliasName, version, bot, env, status.fullBotName))]
    ensures r.Pass? <==> Settle(AliasWatch, feed).verdict.Ready?
    ensures r.Fail? ==> r.error == ProvisioningFailed(AliasResource(aliasName), Settle(AliasWatch, feed).verdict)
    ensures status.logging == if aliasName == bot.productionAlias then LoggingFor(aliasName, bot, env, status.fullBotName) else old(status.logging)
    ensures aliasName == bot.productionAlias ==> "/aws/lex/" + status.fullBotName in svc.logGroups
    ensures aliasName != bot.productionAlias ==> svc.logGroups == old(svc.logGroups)
    ensures old(svc.trace) <= svc.trace
    ensures forall c :: c in Since(old(svc.trace), svc.trace) ==>
      c.DescribeLogGroups? || c.CreateLogGroup? || c == Call.UpdateAlias(aliasName, aliasName == bot.productionAlias)
    ensures aliasName != bot.productionAlias ==>
      forall c :: c in Since(old(svc.trace), svc.trace) ==> !c.DescribeLogGroups? && !c.CreateLogGroup?
  {
    ghost var t0 := svc.trace;
    var logging := SetupLogging(svc, status, aliasName, bot, env);
    var request := AliasRequest(aliasName, version, bot.description, bot.localeId, bot.detectSentiment, logging);
    ghost var t1 := svc.trace;
    ghost var groups := svc.logGroups;
    svc.UpdateBotAlias(aliasId, request);
    assert svc.logGroups == groups;
    SinceChain(t0, t1, svc.trace);
    var poll := Poll(AliasWatch, feed);
    if poll.verdict.Ready? {
      r := Pass;
    } else {
      r := Fail(ProvisioningFailed(AliasResource(aliasName), poll.verdict));
    }
  }

  /**
   * `updateAlias`: creates the alias iff none has exactly this name, else
   * updates it in place; either way it returns the alias id, which for an
   * existing alias is the id it already had.
   */
  method UpdateAlias(svc: BotService, status: DeploymentStatus, version: Id, aliasName: string,
                     bot: BotConfig, env: EnvConfig, feed: seq<Observation>)
    returns (r: Result<Id, DeployError>)
    requires svc.Valid()
    modifies svc`aliases, svc`nextId, svc`logGroups, svc`trace, status`logging
    ensures svc.Valid()
    // A created alias gets a fresh id: no bot, intent or alias had it.
    ensures aliasName !in old(svc.aliases) ==> old(svc.Unused(svc.nextId))
    ensures svc.aliases ==
      ReconcileAlias(old(svc.aliases), AliasRequestFor(aliasName, version, bot, env, status.fullBotName), old(svc.nextId))
    ensures svc.nextId == if aliasName in old(svc.aliases) then old(svc.nextId) else old(svc.nextId) + 1
    ensures r.Ok? <==> Settle(AliasWatch, feed).verdict.Ready?
    ensures r.Ok? ==> aliasName in svc.aliases && r.value == svc.aliases[aliasName].botAliasId
    ensures r.Err? ==> r.error == ProvisioningFailed(AliasResource(aliasName), Settle(AliasWatch, feed).verdict)
    ensures status.logging == if aliasName == bot.productionAlias then LoggingFor(aliasName, bot, env, status.fullBotName) else old(status.logging)
    ensures aliasName == bot.productionAlias ==> "/aws/lex/" + status.fullBotName in svc.logGroups
    ensures aliasName != bot.productionAlias ==> svc.logGroups == old(svc.logGroups)
    ensures old(svc.trace) <= svc.trace
    ensures forall c :: c in Since(old(svc.trace), svc.trace) ==>
      c.ListAliases? || c.DescribeLogGroups? || c.CreateLogGroup?
      || (WritesAlias(c, aliasName) && c.logged == (aliasName == bot.productionAlias))
    ensures aliasName != bot.productionAlias ==>
      forall c :: c in Since(old(svc.trace), svc.trace) ==> !c.DescribeLogGroups? && !c.CreateLogGroup?
    ensures (exists c :: c in Since(old(svc.trace), svc.trace) && c.CreateAlias?) <==> aliasName !in old(svc.aliases)
  {
    ghost var t0 := svc.trace;
    var existingAliases := svc.ListBotAliases();
    ghost var t1 := svc.trace;
    if aliasName !in existingAliases {
      r := CreateBotAlias(svc, status, version, aliasName, bot, env, feed);
    } else {
      var existingId := existingAliases[aliasName].botAliasId;
      var updated := UpdateBotAlias(svc, status, version, existingId, aliasName, bot, env, feed);
      r := if updated.Pass? then Ok(existingId) else Err(updated.error);
    }
    SinceChain(t0, t1, svc.trace);
  }
}

=== FILE: common.dfy ===
/**
 * Value types shared by the deployment pipeline: the bot and environment
 * configuration documents, the status observations returned by describe
 * calls, and the errors that stop a deployment.
 */
module Common {

  datatype Option<+T> = None | Some(value: T)

  /** Success without a value, or the error that stopped an operation. */
  datatype Outcome<+E> = Pass | Fail(error: E)

  datatype Result<+T, +E> = Ok(value: T) | Err(error: E)

  /** Identifiers the remote service mints for bots, intents, versions and aliases. */
  type Id = nat

  /** One intent of the bot document: its training utterances and its test inputs. */
  datatype IntentSpec = IntentSpec(
    name: string,
    description: string,
    utterances: seq<string>,
    tests: seq<string>)

  /** The bot document. */
  datatype BotConfig = BotConfig(
    name: string,
    description: string,
    localeId: string,
    voice: string,
    idleSessionTTLInSeconds: int,
    confidenceThreshold: real,
    detectSentiment: bool,
    intents: seq<IntentSpec>,
    challengerAlias: string,
    productionAlias: string)

  /** The environment document. */
  datatype EnvConfig = EnvConfig(
    stage: string,
    region: string,
    accountNumber: string,
    roleArn: string,
    conversationalLogsBucketArn: string,
    connectArn: string)

  /** What one describe call returned: a status string, or an error. */
  datatype Observation = Seen(status: string) | DescribeError

  /** How a status poll ended. */
  datatype Verdict =
    | Ready(status: string)      // a success status was observed
    | Terminal(status: string)   // a failure status was observed
    | DescribeFailed             // a describe call raised an error that the loop does not catch
    | NeverSettled               // the observations ran out before a terminal status

  /** The resource whose provisioning a poll was waiting for. */
  datatype Resource = BotResource | LocaleResource | BuildResource | VersionResource | AliasResource(aliasName: string)

  datatype DeployError =
    | DuplicateIntentName(intent: string)
    | DuplicateUtterance(utterance: string, intent: string)
    | ProvisioningFailed(resource: Resource, verdict: Verdict)
    | IntentMissing(intent: string)
    | TestsFailed(failures: nat)
    | TestAborted(text: string)
}

=== FILE: deploy.dfy ===
/**
 * `deployBot`: validate the document, find or create the bot, make sure the
 * draft locale exists, reconcile the intents, build, snapshot a version,
 * point the challenger alias at it, run the tests against the challenger,
 * and only then point the production alias at the version and grant the
 * contact-center instance access to it. The first failing step ends the run;
 * what the status record holds by then stays with the caller.
 *
 * The body of `deployBot` is one function; here it is cut into three phases
 * (bot, draft, promotion) so that each phase's reasoning stays small.
 */
module Deploy {

  import opened Common
  import opened Text
  import opened Validator
  import opened Polling
  import opened Remote
  import opened Status
  import opened Provisioning
  import opened Intents
  import opened Aliases
  import opened Testing

  /** What the describe calls and the inference service answer during one run. */
  datatype Feeds = Feeds(
    botStatus: seq<Observation>,         // describeBot while a new bot is created
    localeProbe: Observation,            // the describeBotLocale that decides whether to create the locale
    localeStatus: seq<Observation>,      // describeBotLocale while the locale is created
    buildStatus: seq<Observation>,       // describeBotLocale while the locale builds
    versionStatus: seq<Observation>,     // describeBotVersion while the version is created
    challengerStatus: seq<Observation>,  // describeBotAlias for the challenger alias
    productionStatus: seq<Observation>,  // describeBotAlias for the production alias
    recognize: string -> seq<Interpretation>)

  /**
   * The promotion discipline of a stretch of requests: access is granted,
   * and the production alias and its log group are touched (when it is not
   * also the challenger), only once the gate is `cleared`; and an alias
   * request carries log destinations exactly when it is for the production alias.
   */
  ghost predicate Disciplined(cs: seq<Call>, bot: BotConfig, cleared: bool)
  {
    forall c :: c in cs ==>
      && (c.GrantAccess? ==> cleared)
      && (WritesAlias(c, bot.productionAlias) && bot.challengerAlias != bot.productionAlias ==> cleared)
      && ((c.DescribeLogGroups? || c.CreateLogGroup?) && bot.challengerAlias != bot.productionAlias ==> cleared)
      && ((c.CreateAlias? || c.UpdateAlias?) ==> (c.logged <==> c.name == bot.productionAlias))
  }

  lemma DisciplinedChain(t0: seq<Call>, t1: seq<Call>, t2: seq<Call>, bot: BotConfig, cleared: bool)
    requires t0 <= t1 <= t2
    requires Disciplined(Since(t0, t1), bot, cleared) && Disciplined(Since(t1, t2), bot, cleared)
    ensures t0 <= t2 && Disciplined(Since(t0, t2), bot, cleared)
  {
    SinceChain(t0, t1, t2);
  }

  /** The draft locale was usable already, or its creation settled. */
  ghost predicate LocaleReady(feeds: Feeds)
  {
    IsBotLocaleAvailable(feeds.localeProbe) || Settle(LocaleWatch, feeds.localeStatus).verdict.Ready?
  }

  /** The build poll ended on Built. */
  ghost predicate Built(feeds: Feeds)
  {
    Settle(BuildWatch, feeds.buildStatus).verdict == Ready("Built")
  }

  /** The version poll ended on Available. */
  ghost predicate Versioned(feeds: Feeds)
  {
    Settle(VersionWatch, feeds.versionStatus).verdict == Ready("Available")
  }

  /** The challenger alias poll ended on Available. */
  ghost predicate ChallengerReady(feeds: Feeds)
  {
    Settle(AliasWatch, feeds.challengerStatus).verdict.Ready?
  }

  /** The promotion gate: the challenger is up and every test passed against it. */
  ghost predicate Cleared(bot: BotConfig, feeds: Feeds)
  {
    ChallengerReady(feeds) && AllPass(bot.intents, feeds.recognize)
  }

  /** The production alias poll ended on Available. */
  ghost predicate ProductionReady(feeds: Feeds)
  {
    Settle(AliasWatch, feeds.productionStatus).verdict.Ready?
  }

  /** Every provisioning step of a run succeeded. */
  ghost predicate StepsSucceeded(feeds: Feeds)
  {
    LocaleReady(feeds) && Built(feeds) && Versioned(feeds) && ChallengerReady(feeds)
  }

  /** The requests of the draft phase: none touches the bot itself, an alias or an access grant. */
  ghost predicate DraftCall(c: Call)
  {
    c.CreateLocale? || c.ListIntents? || c.CreateIntent? || c.UpdateIntent? || c.BuildLocale? || c.CreateVersion?
  }

  /** The requests of the promotion phase: aliases, their log groups and the access grant. */
  ghost predicate PromotionCall(c: Call)
  {
    c.ListAliases? || c.CreateAlias? || c.UpdateAlias? || c.DescribeLogGroups? || c.CreateLogGroup? || c.GrantAccess?
  }

  ghost predicate DraftCalls(cs: seq<Call>, localeId: string)
  {
    forall c :: c in cs ==> DraftCall(c) && (c.CreateLocale? ==> c.localeId == localeId)
  }

  /**
   * A failed step stops everything after it: intent requests and the build
   * follow a usable locale, the version follows a successful build, every
   * promotion request follows a successful build and version, and the access
   * grant follows a production alias that became available.
   */
  ghost predicate Staged(cs: seq<Call>, feeds: Feeds)
  {
    forall c :: c in cs ==>
      && ((DraftCall(c) && !c.CreateLocale?) || PromotionCall(c) ==> LocaleReady(feeds))
      && (c.CreateVersion? || PromotionCall(c) ==> Built(feeds))
      && (PromotionCall(c) ==> Versioned(feeds))
      && (c.GrantAccess? ==> ProductionReady(feeds))
  }

  /**
   * The step of `deployBot` a request belongs to, numbered in the order the
   * steps run: the lookup, the creation, the locale, the intents, the build,
   * the version, the challenger alias, the production alias, the grant.
   */
  ghost function StepOf(c: Call, bot: BotConfig): int
  {
    if c.ListBots? then 0
    else if c.CreateBot? then 1
    else if c.CreateLocale? then 2
    else if c.ListIntents? || c.CreateIntent? || c.UpdateIntent? then 3
    else if c.BuildLocale? then 4
    else if c.CreateVersion? then 5
    else if WritesAlias(c, bot.challengerAlias) then 6
    else if c.CreateAlias? || c.UpdateAlias? then 7
    else 8
  }

  /** Alias listings and log group requests serve both alias steps, so they belong to no single step. */
  ghost predicate Stepped(c: Call)
  {
    !c.ListAliases? && !c.DescribeLogGroups? && !c.CreateLogGroup?
  }

  /** The steps' requests come in the order of the steps. */
  ghost predicate InStepOrder(cs: seq<Call>, bot: BotConfig)
  {
    forall i, j {:trigger StepOf(cs[i], bot), StepOf(cs[j], bot)} ::
      0 <= i < j < |cs| && Stepped(cs[i]) && Stepped(cs[j]) ==> StepOf(cs[i], bot) <= StepOf(cs[j], bot)
  }

  /** Every request of `cs` that belongs to a step belongs to one of the steps `lo` to `hi`. */
  ghost predicate StepsWithin(cs: seq<Call>, bot: BotConfig, lo: int, hi: int)
  {
    forall c {:trigger StepOf(c, bot)} :: c in cs && Stepped(c) ==> lo <= StepOf(c, bot) <= hi
  }

  /** The requests of a single step are in step order. */
  lemma OneStep(cs: seq<Call>, bot: BotConfig, k: int)
    requires StepsWithin(cs, bot, k, k)
    ensures InStepOrder(cs, bot)
  {
    forall i, j | 0 <= i < j < |cs| && Stepped(cs[i]) && Stepped(cs[j])
      ensures StepOf(cs[i], bot) <= StepOf(cs[j], bot)
    {
      assert cs[i] in cs && cs[j] in cs;
    }
  }

  /** Two stretches in step order, the first ending at the step where the second begins, join in step order. */
  lemma StepOrderConcat(a: seq<Call>, b: seq<Call>, bot: BotConfig, lo: int, mid: int, hi: int)
    requires lo <= mid <= hi
    requires InStepOrder(a, bot) && StepsWithin(a, bot, lo, mid)
    requires InStepOrder(b, bot) && StepsWithin(b, bot, mid, hi)
    ensures InStepOrder(a + b, bot) && StepsWithin(a + b, bot, lo, hi)
  {
    var cs := a + b;
    forall i, j | 0 <= i < j < |cs| && Stepped(cs[i]) && Stepped(cs[j])
      ensures StepOf(cs[i], bot) <= StepOf(cs[j], bot)
    {
      if j < |a| {
        assert cs[i] == a[i] && cs[j] == a[j];
      } else if |a| <= i {
        assert cs[i] == b[i - |a|] && cs[j] == b[j - |a|];
      } else {
        assert cs[i] == a[i] && a[i] in a;
        assert cs[j] == b[j - |a|] && b[j - |a|] in b;
      }
    }
    assert forall c :: c in cs <==> c in a || c in b;
  }

  /** No draft request follows a promotion request. */
  ghost predicate DraftThenPromotion(cs: seq<Call>)
  {
    forall i, j :: 0 <= i < j < |cs| && PromotionCall(cs[i]) ==> !DraftCall(cs[j])
  }

  lemma DraftThenPromotionConcat(draft: seq<Call>, promotion: seq<Call>)
    requires forall c :: c in draft ==> DraftCall(c)
    requires forall c :: c in promotion ==> PromotionCall(c)
    ensures DraftThenPromotion(draft + promotion)
  {
    var cs := draft + promotion;
    forall i, j | 0 <= i < j < |cs| && PromotionCall(cs[i]) ensures !DraftCall(cs[j]) {
      if i < |draft| {
        assert DraftCall(cs[i]) by {
          assert cs[i] == draft[i];
        }
        assert false;
      }
      assert cs[j] == promotion[j - |draft|];
      assert cs[j] in promotion;
    }
  }

  lemma StagedChain(t0: seq<Call>, t1: seq<Call>, t2: seq<Call>, feeds: Feeds)
    requires t0 <= t1 <= t2
    requires Staged(Since(t0, t1), feeds) && Staged(Since(t1, t2), feeds)
    ensures t0 <= t2 && Staged(Since(t0, t2), feeds)
  {
    SinceChain(t0, t1, t2);
  }

  /**
   * What a completed promotion leaves: both aliases point at the recorded
   * version, the production alias (whose id is recorded) logs to a group
   * that exists, and access is granted on the production alias's ARN.
   */
  ghost predicate Promoted(svc: BotService, status: DeploymentStatus, bot: BotConfig, env: EnvConfig)
    reads svc, status
  {
    && status.botId.Some? && status.botVersion.Some?
    && status.challengerAliasId.Some? && status.productionAliasId.Some?
    && bot.challengerAlias in svc.aliases && bot.productionAlias in svc.aliases
    && svc.aliases[bot.challengerAlias].botAliasId == status.challengerAliasId.value
    && svc.aliases[bot.productionAlias].botAliasId == status.productionAliasId.value
    && svc.aliases[bot.productionAlias].settings.botVersion == status.botVersion.value
    && svc.aliases[bot.challengerAlias].settings.botVersion == status.botVersion.value
    && svc.aliases[bot.productionAlias].settings.logging.Some?
    && svc.aliases[bot.productionAlias].settings.logging.value.logGroupName in svc.logGroups
    && CreateBotAliasArn(env.region, env.accountNumber, DecimalText(status.botId.value),
                         DecimalText(status.productionAliasId.value)) in svc.grants
  }

  /** The version just snapshotted holds the intents as they are now. */
  ghost predicate Snapshotted(svc: BotService, version: Id)
    reads svc
  {
    1 <= version == |svc.versions| && svc.versions[version - 1] == svc.intents
  }

  /**
   * The production side is as it was: the production alias entry (present or
   * absent, and its value), the log groups and the access grants.
   */
  ghost predicate ProductionUntouched(svc: BotService, aliases: map<string, RemoteAlias>, logGroups: set<string>,
                                      grants: set<string>, bot: BotConfig)
    reads svc
  {
    && (bot.productionAlias in svc.aliases <==> bot.productionAlias in aliases)
    && (bot.productionAlias in aliases ==> svc.aliases[bot.productionAlias] == aliases[bot.productionAlias])
    && svc.logGroups == logGroups && svc.grants == grants
  }

  /** The error of the first draft step that fails (the locale, the build, the version), if one fails. */
  ghost function DraftError(feeds: Feeds): Option<DeployError>
  {
    if !LocaleReady(feeds) then Some(ProvisioningFailed(LocaleResource, NeverSettled))
    else if !Built(feeds) then Some(ProvisioningFailed(BuildResource, Settle(BuildWatch, feeds.buildStatus).verdict))
    else if !Versioned(feeds) then Some(ProvisioningFailed(VersionResource, Settle(VersionWatch, feeds.versionStatus).verdict))
    else None
  }

  /**
   * How the challenger step ends: the challenger alias poll's failure, else
   * the test run's own failure (an abort exactly when some test aborts).
   */
  ghost predicate ChallengeReport(r: Outcome<DeployError>, bot: BotConfig, feeds: Feeds)
  {
    if !ChallengerReady(feeds) then
      r == Fail(ProvisioningFailed(AliasResource(bot.challengerAlias), Settle(AliasWatch, feeds.challengerStatus).verdict))
    else if !AllPass(bot.intents, feeds.recognize) then
      r.Fail? && (r.error.TestsFailed? || r.error.TestAborted?)
      && (r.error.TestAborted? <==> SomeAborted(bot.intents, feeds.recognize))
    else r.Pass?
  }

  /**
   * How the promotion phase ends: the challenger alias poll's failure, else
   * the test run's own failure (an abort exactly when some test aborts), else
   * the production alias poll's failure, else success.
   */
  ghost predicate PromotionReport(r: Outcome<DeployError>, bot: BotConfig, feeds: Feeds)
  {
    if !Cleared(bot, feeds) then ChallengeReport(r, bot, feeds)
    else if !ProductionReady(feeds) then
      r == Fail(ProvisioningFailed(AliasResource(bot.productionAlias), Settle(AliasWatch, feeds.productionStatus).verdict))
    else r.Pass?
  }

  /** How a run ends once the bot exists: the first failing step's own error. */
  ghost predicate DeliveryReport(r: Outcome<DeployError>, bot: BotConfig, feeds: Feeds)
  {
    if DraftError(feeds).Some? then r == Fail(DraftError(feeds).value) else PromotionReport(r, bot, feeds)
  }

  /** How a run past validation ends: the bot step's failure, else as `DeliveryReport`. */
  ghost predicate RunReport(r: Outcome<DeployError>, bot: BotConfig, feeds: Feeds, botReady: bool)
  {
    if botReady then DeliveryReport(r, bot, feeds)
    else r == Fail(ProvisioningFailed(BotResource, Settle(BotWatch, feeds.botStatus).verdict))
  }

  /** What a run that got past the lookup leaves when every step succeeded. */
  ghost predicate Delivered(svc: BotService, status: DeploymentStatus, bot: BotConfig, env: EnvConfig, feeds: Feeds)
    reads svc, status
  {
    && Cleared(bot, feeds)
    && StepsSucceeded(feeds)
    && Reconciled(svc.intents, bot.intents)
    && Promoted(svc, status, bot, env)
    && status.botVersion.Some? && Snapshotted(svc, status.botVersion.value)
  }

  /** The first lines of `deployBot`: look the bot up by its full name and create it when there is none. */
  method EnsureBot(svc: BotService, status: DeploymentStatus, fullBotName: string, feed: seq<Observation>)
    returns (r: Result<BotSummary, DeployError>)
    requires svc.Valid()
    modifies svc`bots, svc`nextId, svc`trace, status`botId, status`created
    ensures svc.Valid()
    ensures old(svc.trace) + [Call.ListBots(fullBotName)] <= svc.trace
    ensures forall c :: c in Since(old(svc.trace), svc.trace) ==>
      c == Call.ListBots(fullBotName) || c == Call.CreateBot(fullBotName)
    ensures Call.CreateBot(fullBotName) in Since(old(svc.trace), svc.trace) <==>
      LookupBot(old(svc.bots), fullBotName).None?
    // One lookup, then at most one creation.
    ensures LookupStretch(Since(old(svc.trace), svc.trace), fullBotName, LookupBot(old(svc.bots), fullBotName).None?)
    ensures r.Ok? <==> LookupBot(old(svc.bots), fullBotName).Some? || Settle(BotWatch, feed).verdict.Ready?
    ensures r.Ok? ==> r.value.botName == fullBotName && r.value in svc.bots
    ensures r.Ok? ==> status.botId == Some(r.value.botId)
    // The id of the bot found, or of the bot created, is recorded either way.
    ensures status.botId == Some(if LookupBot(old(svc.bots), fullBotName).Some?
                                 then LookupBot(old(svc.bots), fullBotName).value.botId else old(svc.nextId))
    ensures r.Ok? ==> (status.created <==> LookupBot(old(svc.bots), fullBotName).None?)
    ensures r.Err? ==> status.created == old(status.created)
    ensures r.Err? ==>
      && LookupBot(old(svc.bots), fullBotName).None?
      && r.error == ProvisioningFailed(BotResource, Settle(BotWatch, feed).verdict)
  {
    ghost var t0 := svc.trace;
    var found := GetBot(svc, fullBotName);
    if found.None? {
      var made := Provisioning.CreateBot(svc, status, fullBotName, feed);
      assert Since(t0, svc.trace) == [Call.ListBots(fullBotName), Call.CreateBot(fullBotName)];
      if made.Err? {
        r := Err(made.error);
        return;
      }
      r := made;
      status.created := true;
    } else {
      assert Since(t0, svc.trace) == [Call.ListBots(fullBotName)];
      r := Ok(found.value);
      status.created := false;
    }
    status.botId := Some(r.value.botId);
  }

  /** The lines of `deployBot` that create the draft locale when the probe did not find it usable. */
  method EnsureLocale(svc: BotService, bot: BotConfig, feeds: Feeds) returns (r: Outcome<DeployError>)
    modifies svc`locale, svc`trace
    ensures old(svc.trace) <= svc.trace
    ensures Since(old(svc.trace), svc.trace) ==
      if IsBotLocaleAvailable(feeds.localeProbe) then [] else [Call.CreateLocale(bot.localeId)]
    ensures r.Pass? <==> LocaleReady(feeds)
    ensures r.Fail? ==> r.error == ProvisioningFailed(LocaleResource, NeverSettled)
  {
    ghost var t0 := svc.trace;
    if !IsBotLocaleAvailable(feeds.localeProbe) {
      r := CreateBotLocale(svc, bot, feeds.localeStatus);
      assert Since(t0, svc.trace) == [Call.CreateLocale(bot.localeId)];
    } else {
      assert Since(t0, svc.trace) == [];
      r := Pass;
    }
  }

  /** The lines of `deployBot` that build the draft and snapshot it as a new version. */
  method BuildAndSnapshot(svc: BotService, feeds: Feeds) returns (r: Result<Id, DeployError>)
    modifies svc`versions, svc`trace
    ensures old(svc.trace) <= svc.trace
    // The version is requested only after a successful build.
    ensures Since(old(svc.trace), svc.trace) ==
      [Call.BuildLocale] + if Built(feeds) then [Call.CreateVersion] else []
    ensures r.Ok? <==> Built(feeds) && Versioned(feeds)
    ensures r.Err? ==>
      r.error == if !Built(feeds) then ProvisioningFailed(BuildResource, Settle(BuildWatch, feeds.buildStatus).verdict)
                 else ProvisioningFailed(VersionResource, Settle(VersionWatch, feeds.versionStatus).verdict)
    ensures r.Ok? ==> Snapshotted(svc, r.value)
  {
    ghost var t0 := svc.trace;
    var built := BuildBot(svc, feeds.buildStatus);
    if built.Fail? {
      assert Since(t0, svc.trace) == [Call.BuildLocale];
      r := Err(built.error);
      return;
    }
    r := CreateBotVersion(svc, feeds.versionStatus);
    assert Since(t0, svc.trace) == [Call.BuildLocale, Call.CreateVersion];
  }

  /**
   * The draft stretches: the locale creation when the probe did not find it,
   * the intent requests once the locale is usable, then the build and, after
   * a successful build only, the version.
   */
  lemma DraftConcat(locale: seq<Call>, intents: seq<Call>, build: seq<Call>, bot: BotConfig, feeds: Feeds)
    requires locale == if IsBotLocaleAvailable(feeds.localeProbe) then [] else [Call.CreateLocale(bot.localeId)]
    requires forall c :: c in intents ==> c.ListIntents? || c.CreateIntent? || c.UpdateIntent?
    requires intents + build != [] ==> LocaleReady(feeds)
    requires build == [] || build == [Call.BuildLocale] + if Built(feeds) then [Call.CreateVersion] else []
    ensures DraftCalls(locale + intents + build, bot.localeId)
    ensures Staged(locale + intents + build, feeds)
    ensures Call.CreateLocale(bot.localeId) in locale + intents + build <==> !IsBotLocaleAvailable(feeds.localeProbe)
    ensures InStepOrder(locale + intents + build, bot) && StepsWithin(locale + intents + build, bot, 2, 5)
  {
    DraftStepOrder(locale, intents, build, bot);
    forall c | c in locale + intents + build
      ensures DraftCall(c) && (c.CreateLocale? ==> c.localeId == bot.localeId)
      ensures !c.CreateLocale? ==> LocaleReady(feeds)
      ensures c.CreateVersion? ==> Built(feeds)
    {
      assert c in locale || c in intents || c in build;
    }
    assert Call.CreateLocale(bot.localeId) !in intents + build;
  }

  /** The draft stretches run the locale step, the intent step, then the build and version steps. */
  lemma DraftStepOrder(locale: seq<Call>, intents: seq<Call>, build: seq<Call>, bot: BotConfig)
    requires locale == [] || locale == [Call.CreateLocale(bot.localeId)]
    requires forall c :: c in intents ==> c.ListIntents? || c.CreateIntent? || c.UpdateIntent?
    requires build == [] || build == [Call.BuildLocale] || build == [Call.BuildLocale, Call.CreateVersion]
    ensures InStepOrder(locale + intents + build, bot) && StepsWithin(locale + intents + build, bot, 2, 5)
  {
    OneStep(locale, bot, 2);
    OneStep(intents, bot, 3);
    StepOrderConcat(locale, intents, bot, 2, 3, 3);
    StepOrderConcat(locale + intents, build, bot, 2, 4, 5);
  }

  /** The middle of `deployBot`: the draft locale, the intents, the build and the version snapshot. */
  method PrepareDraft(svc: BotService, bot: BotConfig, feeds: Feeds) returns (r: Result<Id, DeployError>)
    requires svc.Valid()
    requires DistinctNames(bot.intents)
    modifies svc`locale, svc`intents, svc`nextId, svc`versions, svc`trace
    ensures svc.Valid()
    ensures r.Ok? <==> LocaleReady(feeds) && Built(feeds) && Versioned(feeds)
    // A failure carries the error of the first draft step that failed.
    ensures DraftError(feeds) == if r.Ok? then None else Some(r.error)
    ensures old(svc.trace) <= svc.trace
    ensures DraftCalls(Since(old(svc.trace), svc.trace), bot.localeId)
    // The locale, then the intents, then the build, then the version.
    ensures InStepOrder(Since(old(svc.trace), svc.trace), bot) && StepsWithin(Since(old(svc.trace), svc.trace), bot, 2, 5)
    ensures Staged(Since(old(svc.trace), svc.trace), feeds)
    // The locale is created only when the probe did not find it usable.
    ensures Call.CreateLocale(bot.localeId) in Since(old(svc.trace), svc.trace) <==>
      !IsBotLocaleAvailable(feeds.localeProbe)
    ensures !IsBotLocaleAvailable(feeds.localeProbe) && !Settle(LocaleWatch, feeds.localeStatus).verdict.Ready? ==>
      r == Err(ProvisioningFailed(LocaleResource, NeverSettled))
    ensures r.Ok? ==>
      && Reconciled(svc.intents, bot.intents)
      && LocaleReady(feeds) && Built(feeds) && Versioned(feeds)
      && Snapshotted(svc, r.value)
  {
    ghost var t0 := svc.trace;
    var locale := EnsureLocale(svc, bot, feeds);
    ghost var t1 := svc.trace;
    if locale.Fail? {
      r := Err(locale.error);
      DraftConcat(Since(t0, t1), [], [], bot, feeds);
      assert Since(t0, t1) + [] + [] == Since(t0, svc.trace);
      return;
    }

    // The intent update always passes: every intent it looks for was created first.
    var _ := UpdateIntents(svc, bot.intents);
    ghost var t2 := svc.trace;
    SinceChain(t0, t1, t2);

    ghost var intents2 := svc.intents;
    r := BuildAndSnapshot(svc, feeds);
    assert svc.intents == intents2;
    SinceChain(t0, t2, svc.trace);
    DraftConcat(Since(t0, t1), Since(t1, t2), Since(t2, svc.trace), bot, feeds);
  }

  /** The production alias step's requests: one step, and no grant among them. */
  lemma ProductionStretch(cs: seq<Call>, bot: BotConfig)
    requires forall c :: c in cs ==>
      c.ListAliases? || c.DescribeLogGroups? || c.CreateLogGroup? || (WritesAlias(c, bot.productionAlias) && c.logged)
    ensures InStepOrder(cs, bot) && StepsWithin(cs, bot, 6, 7) && StepsWithin(cs, bot, 6, 8)
    ensures forall c :: c in cs ==> !c.GrantAccess?
  {
    OneStep(cs, bot, if bot.productionAlias == bot.challengerAlias then 6 else 7);
  }

  /** The production alias step followed by the grant: in step order, the grant last. */
  lemma ReleaseStretch(t0: seq<Call>, t1: seq<Call>, t2: seq<Call>, arn: string, bot: BotConfig)
    requires t0 <= t1 <= t2 && Since(t1, t2) == [Call.GrantAccess(arn)]
    requires forall c :: c in Since(t0, t1) ==>
      c.ListAliases? || c.DescribeLogGroups? || c.CreateLogGroup? || (WritesAlias(c, bot.productionAlias) && c.logged)
    ensures t0 <= t2
    ensures forall c :: c in Since(t0, t2) ==>
      c.ListAliases? || c.DescribeLogGroups? || c.CreateLogGroup? || c.GrantAccess?
      || (WritesAlias(c, bot.productionAlias) && c.logged)
    ensures InStepOrder(Since(t0, t2), bot) && StepsWithin(Since(t0, t2), bot, 6, 8)
  {
    SinceChain(t0, t1, t2);
    ProductionStretch(Since(t0, t1), bot);
    OneStep(Since(t1, t2), bot, 8);
    StepOrderConcat(Since(t0, t1), Since(t1, t2), bot, 6, 7, 8);
  }

  /**
   * The last lines of `deployBot`: point the production alias at the version
   * (with log destinations) and grant the contact-center instance access to it.
   */
  method Release(svc: BotService, status: DeploymentStatus, bot: BotConfig, env: EnvConfig, feed: seq<Observation>)
    returns (r: Outcome<DeployError>)
    requires status.botId.Some? && status.botVersion.Some? && status.challengerAliasId.Some?
    requires bot.challengerAlias in svc.aliases
    requires svc.aliases[bot.challengerAlias].settings.botVersion == status.botVersion.value
    requires svc.aliases[bot.challengerAlias].botAliasId == status.challengerAliasId.value
    requires svc.Valid()
    modifies svc`aliases, svc`nextId, svc`logGroups, svc`grants, svc`trace
    modifies status`logging, status`productionAliasId
    ensures svc.Valid()
    ensures r.Pass? <==> Settle(AliasWatch, feed).verdict.Ready?
    ensures r.Fail? ==> r.error == ProvisioningFailed(AliasResource(bot.productionAlias), Settle(AliasWatch, feed).verdict)
    ensures old(svc.trace) <= svc.trace
    ensures forall c :: c in Since(old(svc.trace), svc.trace) ==>
      c.ListAliases? || c.DescribeLogGroups? || c.CreateLogGroup? || c.GrantAccess?
      || (WritesAlias(c, bot.productionAlias) && c.logged)
    // A failed production alias stops the run before the grant.
    ensures forall c :: c in Since(old(svc.trace), svc.trace) && c.GrantAccess? ==> r.Pass?
    ensures r.Fail? ==> svc.grants == old(svc.grants)
    // The production alias writes, then the grant.
    ensures InStepOrder(Since(old(svc.trace), svc.trace), bot) && StepsWithin(Since(old(svc.trace), svc.trace), bot, 6, 8)
    ensures status.productionAliasId != old(status.productionAliasId) ==> r.Pass?
    ensures r.Pass? ==> Promoted(svc, status, bot, env)
  {
    var botId, version := status.botId.value, status.botVersion.value;
    ghost var t0, grants0 := svc.trace, svc.grants;
    var production := Aliases.UpdateAlias(svc, status, version, bot.productionAlias, bot, env, feed);
    ghost var t1 := svc.trace;
    assert svc.aliases[bot.challengerAlias].settings.botVersion == version;
    assert svc.aliases[bot.challengerAlias].botAliasId == status.challengerAliasId.value;
    assert svc.grants == grants0;
    if production.Err? {
      ProductionStretch(Since(t0, t1), bot);
      r := Fail(production.error);
      return;
    }
    status.productionAliasId := Some(production.value);

    var lexBotArn := CreateBotAliasArn(env.region, env.accountNumber, DecimalText(botId), DecimalText(production.value));
    svc.GrantAccess(lexBotArn);
    ReleaseStretch(t0, t1, svc.trace, lexBotArn, bot);
    r := Pass;
  }

  /**
   * Point the challenger alias at the recorded version, record its id, and
   * run the tests against it: the gate in front of the release.
   */
  method Challenge(svc: BotService, status: DeploymentStatus, bot: BotConfig, env: EnvConfig, feeds: Feeds)
    returns (r: Outcome<DeployError>)
    requires status.botVersion.Some?
    requires svc.Valid()
    modifies svc`aliases, svc`nextId, svc`logGroups, svc`trace
    modifies status`logging, status`challengerAliasId
    ensures svc.Valid()
    ensures old(svc.trace) <= svc.trace
    // A challenger that is not the production alias leaves the production side alone.
    ensures bot.challengerAlias != bot.productionAlias ==>
      && (forall c :: c in Since(old(svc.trace), svc.trace) ==> !c.DescribeLogGroups? && !c.CreateLogGroup?)
      && ProductionUntouched(svc, old(svc.aliases), old(svc.logGroups), old(svc.grants), bot)
    ensures forall c :: c in Since(old(svc.trace), svc.trace) ==>
      c.ListAliases? || c.DescribeLogGroups? || c.CreateLogGroup?
      || (WritesAlias(c, bot.challengerAlias) && c.logged == (bot.challengerAlias == bot.productionAlias))
    ensures r.Pass? <==> Cleared(bot, feeds)
    ensures ChallengeReport(r, bot, feeds)
    ensures InStepOrder(Since(old(svc.trace), svc.trace), bot) && StepsWithin(Since(old(svc.trace), svc.trace), bot, 6, 6)
    // The id recorded for the tests is the challenger alias's own id.
    ensures ChallengerReady(feeds) ==>
      && status.challengerAliasId.Some?
      && bot.challengerAlias in svc.aliases
      && svc.aliases[bot.challengerAlias].botAliasId == status.challengerAliasId.value
      && svc.aliases[bot.challengerAlias].settings.botVersion == status.botVersion.value
  {
    var challenger := Aliases.UpdateAlias(svc, status, status.botVersion.value, bot.challengerAlias, bot, env, feeds.challengerStatus);
    OneStep(Since(old(svc.trace), svc.trace), bot, 6);
    if challenger.Err? {
      r := Fail(challenger.error);
      return;
    }
    status.challengerAliasId := Some(challenger.value);

    // The gate: nothing after this step runs unless every test passed.
    var results, failures;
    results, failures, r := TestBot(bot.intents, feeds.recognize);
  }

  /**
   * The end of `deployBot`: the challenger alias, the tests against it, and,
   * only when every test passed, the release to production.
   */
  method Promote(svc: BotService, status: DeploymentStatus, bot: BotConfig, env: EnvConfig, feeds: Feeds)
    returns (r: Outcome<DeployError>)
    requires status.botId.Some? && status.botVersion.Some?
    requires svc.Valid()
    modifies svc`aliases, svc`nextId, svc`logGroups, svc`grants, svc`trace
    modifies status`logging, status`challengerAliasId, status`productionAliasId
    ensures svc.Valid()
    ensures r.Pass? <==> Cleared(bot, feeds) && ProductionReady(feeds)
    ensures !Cleared(bot, feeds) && bot.challengerAlias != bot.productionAlias ==>
      ProductionUntouched(svc, old(svc.aliases), old(svc.logGroups), old(svc.grants), bot)
    ensures old(svc.trace) <= svc.trace
    ensures forall c :: c in Since(old(svc.trace), svc.trace) ==> PromotionCall(c)
    ensures Disciplined(Since(old(svc.trace), svc.trace), bot, Cleared(bot, feeds))
    ensures status.productionAliasId != old(status.productionAliasId) ==> Cleared(bot, feeds)
    // Which step's error ends the phase.
    ensures PromotionReport(r, bot, feeds)
    // The challenger alias, then the production alias, then the grant, which
    // only follows a production alias that became available.
    ensures InStepOrder(Since(old(svc.trace), svc.trace), bot) && StepsWithin(Since(old(svc.trace), svc.trace), bot, 6, 8)
    ensures forall c :: c in Since(old(svc.trace), svc.trace) && c.GrantAccess? ==> ProductionReady(feeds)
    ensures r.Pass? ==> Cleared(bot, feeds) && Promoted(svc, status, bot, env)
  {
    ghost var t0 := svc.trace;
    ghost var passed := Cleared(bot, feeds);

    r := Challenge(svc, status, bot, env, feeds);
    ghost var t1 := svc.trace;
    assert Disciplined(Since(t0, t1), bot, passed);
    if r.Pass? {
      r := Release(svc, status, bot, env, feeds.productionStatus);
      assert Disciplined(Since(t1, svc.trace), bot, passed);
    }
    DisciplinedChain(t0, t1, svc.trace, bot, passed);
    PromotionStretch(t0, t1, svc.trace, bot);
  }

  /** The challenger alias stretch, then the production alias and grant stretch. */
  lemma PromotionStretch(t0: seq<Call>, t1: seq<Call>, t2: seq<Call>, bot: BotConfig)
    requires t0 <= t1 <= t2
    requires InStepOrder(Since(t0, t1), bot) && StepsWithin(Since(t0, t1), bot, 6, 6)
    requires InStepOrder(Since(t1, t2), bot) && StepsWithin(Since(t1, t2), bot, 6, 8)
    requires forall c :: c in Since(t0, t1) ==> !c.GrantAccess?
    ensures t0 <= t2
    ensures InStepOrder(Since(t0, t2), bot) && StepsWithin(Since(t0, t2), bot, 6, 8)
    ensures forall c :: c in Since(t0, t2) && c.GrantAccess? ==> c in Since(t1, t2)
  {
    SinceChain(t0, t1, t2);
    StepOrderConcat(Since(t0, t1), Since(t1, t2), bot, 6, 6, 8);
  }

  /** The requests of a run once the bot exists. */
  ghost predicate DeliveryRequests(cs: seq<Call>, bot: BotConfig, feeds: Feeds)
  {
    && (forall c :: c in cs ==> !c.CreateBot? && !c.ListBots?)
    && DraftThenPromotion(cs)
    && Staged(cs, feeds)
    && Disciplined(cs, bot, Cleared(bot, feeds))
    && InStepOrder(cs, bot) && StepsWithin(cs, bot, 2, 8)
  }

  /** A draft stretch followed by a promotion stretch that runs only on a built version. */
  lemma DeliveryConcat(draft: seq<Call>, promotion: seq<Call>, bot: BotConfig, feeds: Feeds)
    requires DraftCalls(draft, bot.localeId) && Staged(draft, feeds)
    requires InStepOrder(draft, bot) && StepsWithin(draft, bot, 2, 5)
    requires forall c :: c in promotion ==> PromotionCall(c)
    requires promotion != [] ==> LocaleReady(feeds) && Built(feeds) && Versioned(feeds)
    requires forall c :: c in promotion && c.GrantAccess? ==> ProductionReady(feeds)
    requires Disciplined(promotion, bot, Cleared(bot, feeds))
    requires InStepOrder(promotion, bot) && StepsWithin(promotion, bot, 6, 8)
    ensures DeliveryRequests(draft + promotion, bot, feeds)
  {
    assert forall c :: c in draft + promotion <==> c in draft || c in promotion;
    DraftThenPromotionConcat(draft, promotion);
    StepOrderConcat(draft, promotion, bot, 2, 5, 8);
  }

  /** `deployBot` once the bot exists: the draft phase, then the promotion phase. */
  method Deliver(svc: BotService, status: DeploymentStatus, bot: BotConfig, env: EnvConfig, feeds: Feeds)
    returns (r: Outcome<DeployError>)
    requires DistinctNames(bot.intents)
    requires status.botId.Some?
    requires svc.Valid()
    modifies svc`locale, svc`intents, svc`versions, svc`aliases, svc`nextId, svc`logGroups, svc`grants, svc`trace
    modifies status`botVersion, status`logging, status`challengerAliasId, status`productionAliasId
    ensures svc.Valid()
    ensures r.Pass? <==> StepsSucceeded(feeds) && Cleared(bot, feeds) && ProductionReady(feeds)
    ensures !Cleared(bot, feeds) && bot.challengerAlias != bot.productionAlias ==>
      ProductionUntouched(svc, old(svc.aliases), old(svc.logGroups), old(svc.grants), bot)
    ensures old(svc.trace) <= svc.trace
    // No bot request; the draft steps come first, each step runs only after the
    // previous ones succeeded, and the promotion gate is kept.
    ensures DeliveryRequests(Since(old(svc.trace), svc.trace), bot, feeds)
    ensures status.productionAliasId != old(status.productionAliasId) ==> Cleared(bot, feeds)
    // Which step's error ends the run.
    ensures DeliveryReport(r, bot, feeds)
    ensures r.Pass? ==> Delivered(svc, status, bot, env, feeds)
  {
    ghost var t0 := svc.trace;

    var version := PrepareDraft(svc, bot, feeds);
    ghost var t1 := svc.trace;
    if version.Err? {
      r := Fail(version.error);
      DeliveryConcat(Since(t0, t1), [], bot, feeds);
      assert Since(t0, t1) + [] == Since(t0, svc.trace);
      return;
    }
    status.botVersion := Some(version.value);
    assert status.productionAliasId == old(status.productionAliasId);
    ghost var intents1, versions1 := svc.intents, svc.versions;

    r := Promote(svc, status, bot, env, feeds);
    assert svc.intents == intents1 && svc.versions == versions1;
    assert status.botVersion == Some(version.value);
    SinceChain(t0, t1, svc.trace);
    DeliveryConcat(Since(t0, t1), Since(t1, svc.trace), bot, feeds);
  }

  /** The lookup stretch of a run: the lookup, then at most one creation. */
  ghost predicate LookupStretch(cs: seq<Call>, name: string, isNew: bool)
  {
    cs == [Call.ListBots(name)] + if isNew then [Call.CreateBot(name)] else []
  }

  /** The lookup stretch neither promotes nor touches the draft. */
  lemma LookupStretchIsQuiet(cs: seq<Call>, name: string, isNew: bool, bot: BotConfig, feeds: Feeds, cleared: bool)
    requires LookupStretch(cs, name, isNew)
    ensures Staged(cs, feeds) && Disciplined(cs, bot, cleared)
    ensures InStepOrder(cs, bot) && StepsWithin(cs, bot, 0, 1)
  {
    assert forall c :: c in cs ==> c.ListBots? || c.CreateBot?;
    forall i, j | 0 <= i < j < |cs| && Stepped(cs[i]) && Stepped(cs[j])
      ensures StepOf(cs[i], bot) <= StepOf(cs[j], bot)
    {
      assert cs[i].ListBots? && cs[j].CreateBot?;
    }
  }

  /** Exactly one creation when the lookup found none, and none otherwise. */
  lemma CreationsInRun(first: seq<Call>, rest: seq<Call>, name: string, isNew: bool)
    requires LookupStretch(first, name, isNew)
    requires forall c :: c in rest ==> !c.CreateBot? && !c.ListBots?
    ensures Call.CreateBot(name) in first + rest <==> isNew
    ensures forall c :: c in first + rest && c.CreateBot? ==> c == Call.CreateBot(name)
    ensures multiset(first + rest)[Call.CreateBot(name)] == if isNew then 1 else 0
  {
    assert Call.CreateBot(name) !in rest;
    assert multiset(rest)[Call.CreateBot(name)] == 0;
    assert multiset(first)[Call.CreateBot(name)] == if isNew then 1 else 0;
    assert multiset(first + rest) == multiset(first) + multiset(rest);
  }

  /**
   * The requests of a run past validation: one creation exactly when the
   * lookup found none (`isNew`); nothing past the lookup unless the bot is
   * available (`botReady`); the steps staged; the promotion gate kept.
   */
  ghost predicate RunRequests(cs: seq<Call>, name: string, isNew: bool, botReady: bool, bot: BotConfig, feeds: Feeds)
  {
    && (Call.CreateBot(name) in cs <==> isNew)
    && (forall c :: c in cs && c.CreateBot? ==> c == Call.CreateBot(name))
    && multiset(cs)[Call.CreateBot(name)] == (if isNew then 1 else 0)
    && (forall c :: c in cs && !c.ListBots? && !c.CreateBot? ==> botReady)
    && DraftThenPromotion(cs)
    && Staged(cs, feeds)
    && Disciplined(cs, bot, Cleared(bot, feeds))
    && InStepOrder(cs, bot)
  }

  /** Lookup requests in front keep the draft requests ahead of the promotion requests. */
  lemma DraftThenPromotionAfterLookup(first: seq<Call>, rest: seq<Call>)
    requires forall c :: c in first ==> c.ListBots? || c.CreateBot?
    requires DraftThenPromotion(rest)
    ensures DraftThenPromotion(first + rest)
  {
    var cs := first + rest;
    assert forall k :: 0 <= k < |first| ==> cs[k] == first[k] && cs[k] in first;
    forall i, j | 0 <= i < j < |cs| && PromotionCall(cs[i]) ensures !DraftCall(cs[j]) {
      assert cs[i] == rest[i - |first|] && cs[j] == rest[j - |first|];
    }
  }

  /**
   * A run's requests are the lookup stretch followed by the stretch of a bot
   * that exists and is available.
   */
  lemma ComposeRun(t0: seq<Call>, t1: seq<Call>, t2: seq<Call>, name: string, isNew: bool, botReady: bool,
                   bot: BotConfig, feeds: Feeds)
    requires t0 <= t1 <= t2
    requires LookupStretch(Since(t0, t1), name, isNew)
    requires t1 == t2 || (botReady && DeliveryRequests(Since(t1, t2), bot, feeds))
    ensures t0 + [Call.ListBots(name)] <= t2
    ensures RunRequests(Since(t0, t2), name, isNew, botReady, bot, feeds)
  {
    var first, rest := Since(t0, t1), Since(t1, t2);
    assert t1 == t2 ==> rest == [];
    SinceChain(t0, t1, t2);
    CreationsInRun(first, rest, name, isNew);
    DraftThenPromotionAfterLookup(first, rest);
    assert t2[|t0|] == first[0];
    assert t2[..|t0| + 1] == t0 + [Call.ListBots(name)];
    LookupStretchIsQuiet(first, name, isNew, bot, feeds, Cleared(bot, feeds));
    DisciplinedChain(t0, t1, t2, bot, Cleared(bot, feeds));
    StagedChain(t0, t1, t2, feeds);
    StepOrderConcat(first, rest, bot, 0, 2, 8);
  }

  /** `deployBot` after `verifyBotConfig` accepted the document. */
  method Rollout(svc: BotService, status: DeploymentStatus, bot: BotConfig, env: EnvConfig, feeds: Feeds)
    returns (r: Outcome<DeployError>)
    requires DistinctNames(bot.intents)
    requires svc.Valid()
    modifies svc, status`created, status`botId, status`botVersion
    modifies status`logging, status`challengerAliasId, status`productionAliasId
    ensures svc.Valid()
    ensures old(svc.trace) + [Call.ListBots(status.fullBotName)] <= svc.trace
    ensures RunRequests(Since(old(svc.trace), svc.trace), status.fullBotName,
      LookupBot(old(svc.bots), status.fullBotName).None?,
      LookupBot(old(svc.bots), status.fullBotName).Some? || Settle(BotWatch, feeds.botStatus).verdict.Ready?,
      bot, feeds)
    ensures status.created ==> old(status.created) || LookupBot(old(svc.bots), status.fullBotName).None?
    ensures r.Pass? ==> (status.created <==> LookupBot(old(svc.bots), status.fullBotName).None?)
    // Success exactly when every step succeeded and the gate cleared.
    ensures r.Pass? <==>
      && (LookupBot(old(svc.bots), status.fullBotName).Some? || Settle(BotWatch, feeds.botStatus).verdict.Ready?)
      && StepsSucceeded(feeds) && Cleared(bot, feeds) && ProductionReady(feeds)
    // Which step's error ends the run.
    ensures RunReport(r, bot, feeds,
      LookupBot(old(svc.bots), status.fullBotName).Some? || Settle(BotWatch, feeds.botStatus).verdict.Ready?)
    // Once the bot step succeeded, `created` says whether the lookup found none.
    ensures LookupBot(old(svc.bots), status.fullBotName).Some? || Settle(BotWatch, feeds.botStatus).verdict.Ready? ==>
      (status.created <==> LookupBot(old(svc.bots), status.fullBotName).None?)
    ensures !(LookupBot(old(svc.bots), status.fullBotName).Some? || Settle(BotWatch, feeds.botStatus).verdict.Ready?) ==>
      status.created == old(status.created)
    ensures status.botId == Some(if LookupBot(old(svc.bots), status.fullBotName).Some?
                                 then LookupBot(old(svc.bots), status.fullBotName).value.botId else old(svc.nextId))
    ensures status.productionAliasId != old(status.productionAliasId) ==> Cleared(bot, feeds)
    ensures !Cleared(bot, feeds) && bot.challengerAlias != bot.productionAlias ==>
      ProductionUntouched(svc, old(svc.aliases), old(svc.logGroups), old(svc.grants), bot)
    ensures r.Pass? ==> Delivered(svc, status, bot, env, feeds)
  {
    ghost var t0 := svc.trace;
    ghost var isNew := LookupBot(svc.bots, status.fullBotName).None?;
    ghost var botReady := !isNew || Settle(BotWatch, feeds.botStatus).verdict.Ready?;
    ghost var created0 := status.created;
    ghost var aliases0, logGroups0, grants0 := svc.aliases, svc.logGroups, svc.grants;
    ghost var found := LookupBot(svc.bots, status.fullBotName);
    ghost var nextId0 := svc.nextId;

    var summary := EnsureBot(svc, status, status.fullBotName, feeds.botStatus);
    ghost var t1 := svc.trace;
    ghost var botId1 := status.botId;
    assert botId1 == Some(if found.Some? then found.value.botId else nextId0);
    assert status.productionAliasId == old(status.productionAliasId);
    assert svc.aliases == aliases0 && svc.logGroups == logGroups0 && svc.grants == grants0;
    assert status.created ==> created0 || isNew;
    if summary.Err? {
      assert !botReady && status.created == created0;
      r := Fail(summary.error);
    } else {
      assert status.created == isNew;
      r := Deliver(svc, status, bot, env, feeds);
      assert status.created == isNew && status.botId == botId1;
    }
    ComposeRun(t0, t1, svc.trace, status.fullBotName, isNew, botReady, bot, feeds);
  }

  method DeployBot(svc: BotService, bot: BotConfig, env: EnvConfig, feeds: Feeds)
    returns (status: DeploymentStatus, r: Outcome<DeployError>)
    requires svc.Valid()
    modifies svc
    ensures svc.Valid()
    ensures fresh(status)
    ensures status.fullBotName == GetBotName(env.stage, bot.name)
    ensures status.verified <==> ValidConfig(bot.intents)
    // No remote request at all unless the document is valid.
    ensures !ValidConfig(bot.intents) ==>
      r.Fail? && (r.error.DuplicateIntentName? || r.error.DuplicateUtterance?) && unchanged(svc)
    ensures ValidConfig(bot.intents) ==> old(svc.trace) + [Call.ListBots(status.fullBotName)] <= svc.trace
    ensures old(svc.trace) <= svc.trace
    // A bot is created iff the lookup by full name found none, and then exactly once.
    ensures Call.CreateBot(status.fullBotName) in Since(old(svc.trace), svc.trace) <==>
      ValidConfig(bot.intents) && LookupBot(old(svc.bots), status.fullBotName).None?
    ensures forall c :: c in Since(old(svc.trace), svc.trace) && c.CreateBot? ==> c == Call.CreateBot(status.fullBotName)
    // `created` records exactly a creation whose bot became available.
    ensures status.created <==>
      ValidConfig(bot.intents) && LookupBot(old(svc.bots), status.fullBotName).None? &&
      Settle(BotWatch, feeds.botStatus).verdict.Ready?
    ensures ValidConfig(bot.intents) ==>
      status.botId == Some(if LookupBot(old(svc.bots), status.fullBotName).Some?
                           then LookupBot(old(svc.bots), status.fullBotName).value.botId else old(svc.nextId))
    ensures multiset(Since(old(svc.trace), svc.trace))[Call.CreateBot(status.fullBotName)] ==
      if ValidConfig(bot.intents) && LookupBot(old(svc.bots), status.fullBotName).None? then 1 else 0
    ensures status.created ==> LookupBot(old(svc.bots), status.fullBotName).None?
    ensures r.Pass? ==> (status.created <==> LookupBot(old(svc.bots), status.fullBotName).None?)
    // A failed step stops what follows: nothing past the lookup without an available bot,
    // and the draft and promotion steps in order, each after the previous ones succeeded.
    ensures forall c :: c in Since(old(svc.trace), svc.trace) && !c.ListBots? && !c.CreateBot? ==>
      LookupBot(old(svc.bots), status.fullBotName).Some? || Settle(BotWatch, feeds.botStatus).verdict.Ready?
    ensures DraftThenPromotion(Since(old(svc.trace), svc.trace))
    ensures Staged(Since(old(svc.trace), svc.trace), feeds)
    // The requests follow the order of the steps: the lookup, the creation, the locale,
    // the intents, the build, the version, the challenger alias, the production alias, the grant.
    ensures InStepOrder(Since(old(svc.trace), svc.trace), bot)
    // The promotion gate and the logging rule.
    ensures Disciplined(Since(old(svc.trace), svc.trace), bot, Cleared(bot, feeds))
    ensures status.productionAliasId.Some? ==> ValidConfig(bot.intents) && Cleared(bot, feeds)
    ensures !Cleared(bot, feeds) && bot.challengerAlias != bot.productionAlias ==>
      ProductionUntouched(svc, old(svc.aliases), old(svc.logGroups), old(svc.grants), bot)
    // Success exactly when the document is valid, every step succeeded and the gate cleared.
    ensures r.Pass? <==>
      && ValidConfig(bot.intents)
      && (LookupBot(old(svc.bots), status.fullBotName).Some? || Settle(BotWatch, feeds.botStatus).verdict.Ready?)
      && StepsSucceeded(feeds) && Cleared(bot, feeds) && ProductionReady(feeds)
    // Which step's error ends a run on a valid document.
    ensures ValidConfig(bot.intents) ==> RunReport(r, bot, feeds,
      LookupBot(old(svc.bots), status.fullBotName).Some? || Settle(BotWatch, feeds.botStatus).verdict.Ready?)
    // What a successful run leaves behind.
    ensures r.Pass? ==>
      && ValidConfig(bot.intents)
      && Cleared(bot, feeds)
      && StepsSucceeded(feeds)
      && Reconciled(svc.intents, bot.intents)
      && Promoted(svc, status, bot, env)
      && Snapshotted(svc, status.botVersion.value)
  {
    status := new DeploymentStatus(GetBotName(env.stage, bot.name));
    var checked := VerifyBotConfig(bot.intents);
    if checked.Fail? {
      r := checked;
      return;
    }
    status.verified := true;
    ValidHasDistinctNames(bot.intents);
    r := Rollout(svc, status, bot, env, feeds);
  }
}

=== FILE: intents.dfy ===
/**
 * `updateIntents`: reconciles the configured intents with the draft locale
 * in two passes. The first pass creates, by exact name, every configured
 * intent the initial listing lacks; the second pass lists again and
 * replaces each configured intent's description and whole utterance list.
 */
module Intents {

  import opened Common
  import opened Remote
  import opened Validator

  /** The names of the first `n` configured intents. */
  function PrefixNames(intents: seq<IntentSpec>, n: nat): set<string>
    requires n <= |intents|
  {
    set k | 0 <= k < n :: intents[k].name
  }

  /** Every configured intent exists remotely with exactly its configured description and utterances. */
  ghost predicate Reconciled(remote: map<string, RemoteIntent>, intents: seq<IntentSpec>)
  {
    forall k :: 0 <= k < |intents| ==>
      intents[k].name in remote
      && remote[intents[k].name].description == intents[k].description
      && remote[intents[k].name].utterances == intents[k].utterances
  }

  /** The first pass: create, by exact name, each configured intent missing from `existing`. */
  method CreateMissingIntents(svc: BotService, intents: seq<IntentSpec>, existing: map<string, RemoteIntent>)
    requires svc.Valid()
    requires svc.intents == existing
    modifies svc`intents, svc`nextId, svc`trace
    ensures svc.Valid()
    ensures svc.intents.Keys == existing.Keys + PrefixNames(intents, |intents|)
    ensures forall n :: n in existing ==> svc.intents[n] == existing[n]
    ensures old(svc.trace) <= svc.trace
    ensures forall c :: c in Since(old(svc.trace), svc.trace) ==>
      c.CreateIntent? && c.name in PrefixNames(intents, |intents|) && c.name !in existing
    ensures forall k :: 0 <= k < |intents| && intents[k].name !in existing ==>
      Call.CreateIntent(intents[k].name) in Since(old(svc.trace), svc.trace)
  {
    ghost var t0 := svc.trace;
    var i := 0;
    while i < |intents|
      invariant 0 <= i <= |intents|
      invariant svc.Valid()
      invariant svc.intents.Keys == existing.Keys + PrefixNames(intents, i)
      invariant forall n :: n in existing ==> svc.intents[n] == existing[n]
      invariant t0 <= svc.trace
      invariant forall c :: c in Since(t0, svc.trace) ==>
        c.CreateIntent? && c.name in PrefixNames(intents, i) && c.name !in existing
      invariant forall k :: 0 <= k < i && intents[k].name !in existing ==>
        Call.CreateIntent(intents[k].name) in Since(t0, svc.trace)
    {
      var intentConfig := intents[i];
      assert PrefixNames(intents, i + 1) == PrefixNames(intents, i) + {intentConfig.name};
      ghost var tb := svc.trace;
      if intentConfig.name !in existing {
        var _ := svc.CreateIntentNamed(intentConfig.name, intentConfig.description);
      }
      SinceChain(t0, tb, svc.trace);
      i := i + 1;
    }
  }

  /**
   * The second pass: replace the description and the whole utterance list
   * of each configured intent found in `listed`; a configured intent absent
   * from the listing stops the pass with an error.
   */
  method ReplaceIntents(svc: BotService, intents: seq<IntentSpec>, listed: map<string, RemoteIntent>)
    returns (r: Outcome<DeployError>)
    requires svc.Valid()
    requires svc.intents == listed
    requires DistinctNames(intents)
    modifies svc`intents, svc`trace
    ensures svc.Valid()
    ensures svc.intents.Keys == listed.Keys
    ensures forall n :: n in listed ==> svc.intents[n].intentId == listed[n].intentId
    ensures forall n :: n in listed && n !in PrefixNames(intents, |intents|) ==> svc.intents[n] == listed[n]
    ensures r.Pass? <==> PrefixNames(intents, |intents|) <= listed.Keys
    ensures r.Pass? ==> Reconciled(svc.intents, intents)
    ensures r.Fail? ==> r.error.IntentMissing? && r.error.intent in PrefixNames(intents, |intents|) && r.error.intent !in listed
    ensures old(svc.trace) <= svc.trace
    ensures forall c :: c in Since(old(svc.trace), svc.trace) ==> c.UpdateIntent?
  {
    ghost var t0 := svc.trace;
    var i := 0;
    while i < |intents|
      invariant 0 <= i <= |intents|
      invariant svc.Valid()
      invariant PrefixNames(intents, i) <= listed.Keys
      invariant svc.intents.Keys == listed.Keys
      invariant forall n :: n in listed ==> svc.intents[n].intentId == listed[n].intentId
      invariant forall n :: n in listed && n !in PrefixNames(intents, i) ==> svc.intents[n] == listed[n]
      invariant forall k :: 0 <= k < i ==>
        intents[k].name in svc.intents
        && svc.intents[intents[k].name].description == intents[k].description
        && svc.intents[intents[k].name].utterances == intents[k].utterances
      invariant t0 <= svc.trace
      invariant forall c :: c in Since(t0, svc.trace) ==> c.UpdateIntent?
    {
      var intentConfig := intents[i];
      assert PrefixNames(intents, i + 1) == PrefixNames(intents, i) + {intentConfig.name};
      if intentConfig.name !in listed {
        r := Fail(IntentMissing(intentConfig.name));
        return;
      }
      ghost var tb := svc.trace;
      svc.UpdateIntentById(listed[intentConfig.name].intentId, intentConfig.name,
                           intentConfig.description, intentConfig.utterances);
      SinceChain(t0, tb, svc.trace);
      i := i + 1;
    }
    r := Pass;
  }

  /**
   * `updateIntents`. Intents that already existed keep their ids (they are
   * never re-created), intents the document does not name are untouched,
   * and on success every configured intent exists with exactly its
   * configured description and utterances, in order.
   */
  method UpdateIntents(svc: BotService, intents: seq<IntentSpec>) returns (r: Outcome<DeployError>)
    requires svc.Valid()
    requires DistinctNames(intents)
    modifies svc`intents, svc`nextId, svc`trace
    ensures svc.Valid()
    // The first pass creates every missing intent, so the second pass always finds them all.
    ensures r.Pass?
    ensures svc.intents.Keys == old(svc.intents).Keys + PrefixNames(intents, |intents|)
    ensures forall n :: n in old(svc.intents) ==> svc.intents[n].intentId == old(svc.intents)[n].intentId
    ensures forall n :: n in old(svc.intents) && n !in PrefixNames(intents, |intents|) ==>
      svc.intents[n] == old(svc.intents)[n]
    ensures Reconciled(svc.intents, intents)
    ensures old(svc.trace) <= svc.trace
    ensures forall c :: c in Since(old(svc.trace), svc.trace) ==>
      c.ListIntents? || c.CreateIntent? || c.UpdateIntent?
    ensures forall n :: Call.CreateIntent(n) in Since(old(svc.trace), svc.trace) <==>
      n in PrefixNames(intents, |intents|) && n !in old(svc.intents)
    // Run again on a service it already reconciled, it creates nothing and changes no intent.
    ensures Reconciled(old(svc.intents), intents) ==>
      && svc.intents == old(svc.intents)
      && forall c :: c in Since(old(svc.trace), svc.trace) ==> !c.CreateIntent?
  {
    ghost var t0 := svc.trace;
    var existing := svc.ListIntentSummaries();
    ghost var t1 := svc.trace;
    CreateMissingIntents(svc, intents, existing);
    ghost var t2 := svc.trace;
    var listed := svc.ListIntentSummaries();
    ghost var t3 := svc.trace;
    r := ReplaceIntents(svc, intents, listed);
    SinceChain(t0, t1, t2);
    SinceChain(t0, t2, t3);
    SinceChain(t0, t3, svc.trace);
    assert Since(t0, t1) == [Call.ListIntents] && Since(t2, t3) == [Call.ListIntents];
  }
}

=== FILE: polling.dfy ===
/**
 * The status polls of the deployment script. Every provisioning step issues
 * a describe call, and while the status is not terminal it sleeps and
 * describes again. The model runs a poll over the finite sequence of
 * observations the describe calls return; sleeping is not modelled.
 */
module Polling {

  import opened Common

  /**
   * The terminal statuses of one poll site. `errorsPending` says that a
   * describe error counts as "not yet" (it is caught) rather than ending
   * the poll (it propagates).
   */
  datatype Watch = Watch(success: set<string>, failure: set<string>, errorsPending: bool)

  /** Alias creation and update wait for Available or Failed. */
  const AliasWatch := Watch({"Available"}, {"Failed"}, false)
  /** Version creation waits for Available or Failed. */
  const VersionWatch := Watch({"Available"}, {"Failed"}, false)
  /** A locale build waits for Built or Failed. */
  const BuildWatch := Watch({"Built"}, {"Failed"}, false)
  /** Bot creation waits for Available only; no status ends it as a failure. */
  const BotWatch := Watch({"Available"}, {}, false)
  /** Locale creation waits until the locale is available: Failed, Built or NotBuilt. */
  const LocaleWatch := Watch({"Failed", "Built", "NotBuilt"}, {}, true)

  /** Whether an observation ends the poll. */
  predicate Settles(w: Watch, o: Observation)
  {
    match o
    case Seen(s) => s in w.success || s in w.failure
    case DescribeError => !w.errorsPending
  }

  /** How a poll that stopped at observation `o` ends; success is tested first. */
  function Judge(w: Watch, o: Observation): (v: Verdict)
    requires Settles(w, o)
    ensures v.Ready? <==> o.Seen? && o.status in w.success
    ensures v != NeverSettled
  {
    match o
    case Seen(s) => if s in w.success then Ready(s) else Terminal(s)
    case DescribeError => DescribeFailed
  }

  /** `waits` counts the non-terminal observations, i.e. the sleeps between describes. */
  datatype PollResult = PollResult(waits: nat, verdict: Verdict)

  /**
   * The meaning of a poll: it stops at the FIRST observation that settles
   * and is judged by that observation alone.
   */
  function Settle(w: Watch, obs: seq<Observation>): (r: PollResult)
    ensures r.waits <= |obs|
  {
    if obs == [] then PollResult(0, NeverSettled)
    else if Settles(w, obs[0]) then PollResult(0, Judge(w, obs[0]))
    else
      var rest := Settle(w, obs[1..]);
      PollResult(rest.waits + 1, rest.verdict)
  }

  /**
   * What `Settle` computes: every observation before the stopping one is
   * pending, and the poll never settles exactly when no observation is
   * terminal; otherwise the stopping observation is terminal and decides.
   */
  lemma {:induction false} SettleMeaning(w: Watch, obs: seq<Observation>)
    ensures forall j :: 0 <= j < Settle(w, obs).waits ==> !Settles(w, obs[j])
    ensures Settle(w, obs).waits == |obs| <==> Settle(w, obs).verdict == NeverSettled
    ensures Settle(w, obs).waits < |obs| ==>
      Settles(w, obs[Settle(w, obs).waits]) && Settle(w, obs).verdict == Judge(w, obs[Settle(w, obs).waits])
  {
    if obs != [] && !Settles(w, obs[0]) {
      SettleMeaning(w, obs[1..]);
      forall j | 0 <= j < Settle(w, obs).waits
        ensures !Settles(w, obs[j])
      {
        if j > 0 {
          assert obs[j] == obs[1..][j - 1];
        }
      }
    }
  }

  /** The polling loop: describe, and while not terminal, describe again. */
  method Poll(w: Watch, obs: seq<Observation>) returns (r: PollResult)
    ensures r == Settle(w, obs)
  {
    SettleMeaning(w, obs);
    var i := 0;
    while i < |obs| && !Settles(w, obs[i])
      invariant 0 <= i <= |obs|
      invariant forall j :: 0 <= j < i ==> !Settles(w, obs[j])
    {
      i := i + 1;
    }
    if i == |obs| {
      r := PollResult(i, NeverSettled);
    } else {
      r := PollResult(i, Judge(w, obs[i]));
    }
  }

  /** Observations after the terminal one are never consumed. */
  lemma {:induction false} SettleIgnoresLater(w: Watch, obs: seq<Observation>, later: seq<Observation>)
    requires Settle(w, obs).waits < |obs|
    ensures Settle(w, obs + later) == Settle(w, obs)
  {
    assert (obs + later)[0] == obs[0];
    if !Settles(w, obs[0]) {
      assert (obs + later)[1..] == obs[1..] + later;
      SettleIgnoresLater(w, obs[1..], later);
    }
  }

  /** `isBotLocaleAvailable`: a describe error reads as "not available". */
  predicate IsBotLocaleAvailable(o: Observation): (r: bool)
    ensures o.DescribeError? ==> !r
    ensures r <==> Settles(LocaleWatch, o)
  {
    match o
    case Seen(s) => s == "Failed" || s == "Built" || s == "NotBuilt"
    case DescribeError => false
  }

  /** `isBotAvailable`: only Available; a describe error is not caught and ends the poll. */
  predicate IsBotAvailable(o: Observation): (r: bool)
    ensures r <==> o.Seen? && Settles(BotWatch, o)
  {
    o == Seen("Available")
  }

  /** The bot-creation loop succeeds exactly on `isBotAvailable`, and only a describe error ends it otherwise. */
  lemma BotWatchIsAvailability(o: Observation)
    ensures Settles(BotWatch, o) && Judge(BotWatch, o).Ready? <==> IsBotAvailable(o)
    ensures Settles(BotWatch, o) && !Judge(BotWatch, o).Ready? <==> o.DescribeError?
  {
  }

  /** The locale-creation loop stops exactly when `isBotLocaleAvailable` answers true, and always succeeds then. */
  lemma LocaleWatchIsAvailability(o: Observation)
    ensures Settles(LocaleWatch, o) <==> IsBotLocaleAvailable(o)
    ensures Settles(LocaleWatch, o) ==> Judge(LocaleWatch, o).Ready?
  {
  }

  /** Failed is "available" for the locale check but a failure for the build. */
  lemma FailedIsAsymmetric()
    ensures IsBotLocaleAvailable(Seen("Failed"))
    ensures Settle(LocaleWatch, [Seen("Failed")]) == PollResult(0, Ready("Failed"))
    ensures Settle(BuildWatch, [Seen("Failed")]) == PollResult(0, Terminal("Failed"))
  {
  }

  /** Two pending observations then Available: two waits between the describes, then success. */
  lemma PendingPendingAvailable()
    ensures Settle(AliasWatch, [Seen("Creating"), Seen("Creating"), Seen("Available")]) == PollResult(2, Ready("Available"))
  {
  }
}

=== FILE: provisioning.dfy ===
/**
 * The create-or-find steps for the bot and its draft locale, and the build
 * and version steps, each followed by its status poll (`getBot`,
 * `createBot`, `createBotLocale`, `buildBot`, `createBotVersion`).
 */
module Provisioning {

  import opened Common
  import opened Remote
  import opened Polling
  import opened Status

  /** `getBot`: a bot is found only when the name filter yields exactly one summary. */
  function LookupBot(bots: seq<BotSummary>, fullBotName: string): (r: Option<BotSummary>)
    ensures r.Some? <==> |Matching(bots, fullBotName)| == 1
    ensures r.Some? ==> r.value in bots && r.value.botName == fullBotName
  {
    var found := Matching(bots, fullBotName);
    if |found| == 1 then Some(found[0]) else None
  }

  lemma {:induction false} TwoMatches(bots: seq<BotSummary>, name: string, i: nat, j: nat)
    requires i < j < |bots| && bots[i].botName == name && bots[j].botName == name
    ensures |Matching(bots, name)| >= 2
  {
    var n := |bots| - 1;
    var init := bots[..n];
    assert bots == init + [bots[n]];
    assert init[i] == bots[i];
    assert Matching(bots, name) == Matching(init, name) + (if bots[n].botName == name then [bots[n]] else []);
    if j < n {
      assert init[j] == bots[j];
      TwoMatches(init, name, i, j);
    } else {
      assert bots[i] in Matching(init, name);
    }
  }

  /** A lookup that finds a bot found the only listed position with that name. */
  lemma FoundIsUnique(bots: seq<BotSummary>, name: string)
    requires LookupBot(bots, name).Some?
    ensures exists i :: 0 <= i < |bots| && bots[i] == LookupBot(bots, name).value &&
                        forall j :: 0 <= j < |bots| && bots[j].botName == name ==> j == i
  {
    var b := LookupBot(bots, name).value;
    var i :| 0 <= i < |bots| && bots[i] == b;
    forall j | 0 <= j < |bots| && bots[j].botName == name ensures j == i {
      if j < i {
        TwoMatches(bots, name, j, i);
      } else if i < j {
        TwoMatches(bots, name, i, j);
      }
    }
  }

  /** A name listed nowhere filters down to nothing. */
  lemma {:induction false} NoneMatching(bots: seq<BotSummary>, name: string)
    requires forall k :: 0 <= k < |bots| ==> bots[k].botName != name
    ensures Matching(bots, name) == []
  {
    if bots != [] {
      NoneMatching(bots[..|bots| - 1], name);
    }
  }

  /** A name listed at exactly one position filters down to that one summary. */
  lemma {:induction false} MatchingOfUnique(bots: seq<BotSummary>, name: string, i: nat)
    requires i < |bots| && bots[i].botName == name
    requires forall j :: 0 <= j < |bots| && bots[j].botName == name ==> j == i
    ensures Matching(bots, name) == [bots[i]]
  {
    var n := |bots| - 1;
    var init := bots[..n];
    assert bots == init + [bots[n]];
    assert Matching(bots, name) == Matching(init, name) + (if bots[n].botName == name then [bots[n]] else []);
    if i == n {
      assert forall k :: 0 <= k < n ==> init[k] == bots[k] && bots[k].botName != name;
      NoneMatching(init, name);
    } else {
      forall j | 0 <= j < |init| && init[j].botName == name ensures j == i {
        assert bots[j] == init[j];
      }
      MatchingOfUnique(init, name, i);
    }
  }

  /** Conversely: a name listed at exactly one position is found, and the lookup returns that summary. */
  lemma UniqueIsFound(bots: seq<BotSummary>, name: string, i: nat)
    requires i < |bots| && bots[i].botName == name
    requires forall j :: 0 <= j < |bots| && bots[j].botName == name ==> j == i
    ensures LookupBot(bots, name) == Some(bots[i])
  {
    MatchingOfUnique(bots, name, i);
  }

  /** Two bots listed under the same name read as "no bot", so a third one would be created. */
  lemma AmbiguousNameIsNotFound(bots: seq<BotSummary>, name: string, i: nat, j: nat)
    requires i < j < |bots| && bots[i].botName == name && bots[j].botName == name
    ensures LookupBot(bots, name) == None
  {
    TwoMatches(bots, name, i, j);
  }

  method GetBot(svc: BotService, fullBotName: string) returns (bot: Option<BotSummary>)
    modifies svc`trace
    ensures bot == LookupBot(svc.bots, fullBotName)
    ensures svc.trace == old(svc.trace) + [Call.ListBots(fullBotName)]
  {
    var summaries := svc.ListBotsNamed(fullBotName);
    if |summaries| == 1 {
      bot := Some(summaries[0]);
    } else {
      bot := None;
    }
  }

  /** `createBot`: the new id is recorded in the status before the poll for Available. */
  method CreateBot(svc: BotService, status: DeploymentStatus, fullBotName: string, feed: seq<Observation>)
    returns (r: Result<BotSummary, DeployError>)
    requires svc.Valid()
    modifies svc`bots, svc`nextId, svc`trace, status`botId
    ensures svc.Valid()
    // The new bot's id is fresh: no bot, intent or alias had it.
    ensures old(svc.Unused(svc.nextId))
    ensures svc.bots == old(svc.bots) + [BotSummary(fullBotName, old(svc.nextId))]
    ensures svc.nextId == old(svc.nextId) + 1
    ensures svc.trace == old(svc.trace) + [Call.CreateBot(fullBotName)]
    ensures status.botId == Some(old(svc.nextId))
    ensures r.Ok? <==> Settle(BotWatch, feed).verdict.Ready?
    ensures r.Ok? ==> r.value == BotSummary(fullBotName, old(svc.nextId))
    ensures r.Err? ==> r.error == ProvisioningFailed(BotResource, Settle(BotWatch, feed).verdict)
  {
    var id := svc.CreateBotNamed(fullBotName);
    status.botId := Some(id);
    var poll := Poll(BotWatch, feed);
    if poll.verdict.Ready? {
      r := Ok(BotSummary(fullBotName, id));
    } else {
      r := Err(ProvisioningFailed(BotResource, poll.verdict));
    }
  }

  /** `createBotLocale`: creates the draft locale, then waits until it is available. */
  method CreateBotLocale(svc: BotService, bot: BotConfig, feed: seq<Observation>) returns (r: Outcome<DeployError>)
    modifies svc`locale, svc`trace
    ensures svc.locale == Some(LocaleSettings(bot.localeId, bot.description, bot.confidenceThreshold, bot.voice))
    ensures svc.trace == old(svc.trace) + [Call.CreateLocale(bot.localeId)]
    ensures r.Pass? <==> Settle(LocaleWatch, feed).verdict.Ready?
    ensures r.Fail? ==> r.error == ProvisioningFailed(LocaleResource, NeverSettled)
  {
    svc.CreateBotLocale(LocaleSettings(bot.localeId, bot.description, bot.confidenceThreshold, bot.voice));
    var poll := Poll(LocaleWatch, feed);
    SettleMeaning(LocaleWatch, feed);
    if poll.verdict.Ready? {
      r := Pass;
    } else {
      r := Fail(ProvisioningFailed(LocaleResource, poll.verdict));
    }
  }

  /** `buildBot`: builds the draft locale; any terminal status other than Built is fatal. */
  method BuildBot(svc: BotService, feed: seq<Observation>) returns (r: Outcome<DeployError>)
    modifies svc`trace
    ensures svc.trace == old(svc.trace) + [Call.BuildLocale]
    ensures r.Pass? <==> Settle(BuildWatch, feed).verdict == Ready("Built")
    ensures r.Fail? ==> r.error == ProvisioningFailed(BuildResource, Settle(BuildWatch, feed).verdict)
  {
    svc.BuildBotLocale();
    var poll := Poll(BuildWatch, feed);
    SettleMeaning(BuildWatch, feed);
    if poll.verdict.Ready? {
      r := Pass;
    } else {
      r := Fail(ProvisioningFailed(BuildResource, poll.verdict));
    }
  }

  /** `createBotVersion`: snapshots the draft; any terminal status other than Available is fatal. */
  method CreateBotVersion(svc: BotService, feed: seq<Observation>) returns (r: Result<Id, DeployError>)
    modifies svc`versions, svc`trace
    ensures svc.versions == old(svc.versions) + [svc.intents]
    ensures svc.trace == old(svc.trace) + [Call.CreateVersion]
    ensures r.Ok? <==> Settle(VersionWatch, feed).verdict == Ready("Available")
    ensures r.Ok? ==> r.value == |svc.versions| && svc.versions[r.value - 1] == svc.intents
    ensures r.Err? ==> r.error == ProvisioningFailed(VersionResource, Settle(VersionWatch, feed).verdict)
  {
    var version := svc.CreateBotVersion();
    var poll := Poll(VersionWatch, feed);
    SettleMeaning(VersionWatch, feed);
    if poll.verdict.Ready? {
      r := Ok(version);
    } else {
      r := Err(ProvisioningFailed(VersionResource, poll.verdict));
    }
  }
}

=== FILE: remote.dfy ===
/**
 * An in-memory stand-in for the remote services the script drives: the bot
 * models service (bots, the draft locale, intents, versions, aliases,
 * resource policies) and the log-group service. Each request is one method;
 * requests that the script issues are appended to `trace`, so that the
 * order of remote effects can be stated. Describe calls are not requests
 * here: their answers are the observations the polls consume.
 */
module Remote {

  import opened Common

  datatype BotSummary = BotSummary(botName: string, botId: Id)

  datatype LocaleSettings = LocaleSettings(localeId: string, description: string, confidenceThreshold: real, voiceId: string)

  datatype RemoteIntent = RemoteIntent(intentId: Id, description: string, utterances: seq<string>)

  /** Conversation-log destinations: text logs to a log group, audio logs to a bucket. */
  datatype LogSettings = LogSettings(
    logGroupName: string,
    cloudWatchLogArn: string,
    cloudWatchLogPrefix: string,
    s3LogBucket: string,
    s3LogPrefix: string)

  /** The body of a create- or update-alias request. */
  datatype AliasRequest = AliasRequest(
    botAliasName: string,
    botVersion: Id,
    description: string,
    localeId: string,
    detectSentiment: bool,
    logging: Option<LogSettings>)

  datatype RemoteAlias = RemoteAlias(botAliasId: Id, settings: AliasRequest)

  /** The requests the script issues, in the order issued. */
  datatype Call =
    | ListBots(name: string)
    | CreateBot(name: string)
    | CreateLocale(localeId: string)
    | ListIntents
    | CreateIntent(name: string)
    | UpdateIntent(name: string)
    | BuildLocale
    | CreateVersion
    | ListAliases
    | CreateAlias(name: string, logged: bool)
    | UpdateAlias(name: string, logged: bool)
    | DescribeLogGroups(name: string)
    | CreateLogGroup(name: string)
    | GrantAccess(arn: string)

  /** Whether a request writes the alias `aliasName`. */
  predicate WritesAlias(c: Call, aliasName: string)
  {
    (c.CreateAlias? || c.UpdateAlias?) && c.name == aliasName
  }

  /** The requests issued after `before` was the trace. */
  function Since(before: seq<Call>, after: seq<Call>): seq<Call>
    requires before <= after
  {
    after[|before|..]
  }

  lemma SinceChain(t0: seq<Call>, t1: seq<Call>, t2: seq<Call>)
    requires t0 <= t1 <= t2
    ensures t0 <= t2
    ensures Since(t0, t2) == Since(t0, t1) + Since(t1, t2)
  {
  }

  class BotService {
    var bots: seq<BotSummary>
    var locale: Option<LocaleSettings>
    var intents: map<string, RemoteIntent>
    var versions: seq<map<string, RemoteIntent>>
    var aliases: map<string, RemoteAlias>
    var logGroups: set<string>
    var grants: set<string>
    var nextId: Id
    var trace: seq<Call>

    /** Every id handed out so far lies below the next one the service will hand out. */
    ghost predicate Valid()
      reads this`bots, this`intents, this`aliases, this`nextId
    {
      && (forall b :: b in bots ==> b.botId < nextId)
      && (forall n :: n in intents ==> intents[n].intentId < nextId)
      && (forall n :: n in aliases ==> aliases[n].botAliasId < nextId)
    }

    /** No bot, intent or alias has the id `id`. */
    ghost predicate Unused(id: Id)
      reads this`bots, this`intents, this`aliases
    {
      && (forall b :: b in bots ==> b.botId != id)
      && (forall n :: n in intents ==> intents[n].intentId != id)
      && (forall n :: n in aliases ==> aliases[n].botAliasId != id)
    }

    constructor (bots: seq<BotSummary>, intents: map<string, RemoteIntent>, aliases: map<string, RemoteAlias>, nextId: Id)
      requires forall b :: b in bots ==> b.botId < nextId
      requires forall n :: n in intents ==> intents[n].intentId < nextId
      requires forall n :: n in aliases ==> aliases[n].botAliasId < nextId
      ensures Valid()
      ensures this.bots == bots && this.intents == intents && this.aliases == aliases && this.nextId == nextId
      ensures locale == None && versions == [] && logGroups == {} && grants == {} && trace == []
    {
      this.bots, this.intents, this.aliases, this.nextId := bots, intents, aliases, nextId;
      locale, versions, logGroups, grants, trace := None, [], {}, {}, [];
    }

    /** `listBots` filtered on the exact bot name. */
    method ListBotsNamed(name: string) returns (found: seq<BotSummary>)
      modifies this`trace
      ensures found == Matching(bots, name)
      ensures trace == old(trace) + [Call.ListBots(name)]
    {
      found := Matching(bots, name);
      trace := trace + [Call.ListBots(name)];
    }

    method CreateBotNamed(name: string) returns (id: Id)
      requires Valid()
      modifies this`bots, this`nextId, this`trace
      ensures Valid()
      // The id is fresh: no bot, intent or alias had it.
      ensures old(Unused(id))
      ensures id == old(nextId) && nextId == id + 1
      ensures bots == old(bots) + [BotSummary(name, id)]
      ensures trace == old(trace) + [Call.CreateBot(name)]
    {
      id := nextId;
      nextId := nextId + 1;
      bots := bots + [BotSummary(name, id)];
      trace := trace + [Call.CreateBot(name)];
    }

    method CreateBotLocale(settings: LocaleSettings)
      modifies this`locale, this`trace
      ensures locale == Some(settings)
      ensures trace == old(trace) + [Call.CreateLocale(settings.localeId)]
    {
      locale := Some(settings);
      trace := trace + [Call.CreateLocale(settings.localeId)];
    }

    /** `listIntents` over the draft locale; its pages are concatenated into one map. */
    method ListIntentSummaries() returns (found: map<string, RemoteIntent>)
      modifies this`trace
      ensures found == intents
      ensures trace == old(trace) + [Call.ListIntents]
    {
      found := intents;
      trace := trace + [Call.ListIntents];
    }

    /** `createIntent`: a new intent with a fresh id and no utterances yet. */
    method CreateIntentNamed(name: string, description: string) returns (id: Id)
      requires Valid()
      modifies this`intents, this`nextId, this`trace
      ensures Valid()
      // The id is fresh: no bot, intent or alias had it.
      ensures old(Unused(id))
      ensures id == old(nextId) && nextId == id + 1
      ensures intents == old(intents)[name := RemoteIntent(id, description, [])]
      ensures trace == old(trace) + [Call.CreateIntent(name)]
    {
      id := nextId;
      nextId := nextId + 1;
      intents := intents[name := RemoteIntent(id, description, [])];
      trace := trace + [Call.CreateIntent(name)];
    }

    /** `updateIntent`: replaces the description and the whole utterance list of an existing intent. */
    method UpdateIntentById(id: Id, name: string, description: string, utterances: seq<string>)
      requires Valid()
      requires name in intents && intents[name].intentId == id
      modifies this`intents, this`trace
      ensures Valid()
      ensures intents == old(intents)[name := RemoteIntent(id, description, utterances)]
      ensures trace == old(trace) + [Call.UpdateIntent(name)]
    {
      intents := intents[name := RemoteIntent(id, description, utterances)];
      trace := trace + [Call.UpdateIntent(name)];
    }

    method BuildBotLocale()
      modifies this`trace
      ensures trace == old(trace) + [Call.BuildLocale]
    {
      trace := trace + [Call.BuildLocale];
    }

    /** `createBotVersion`: an immutable snapshot of the draft intents, numbered from 1. */
    method CreateBotVersion() returns (version: Id)
      modifies this`versions, this`trace
      ensures versions == old(versions) + [intents]
      ensures version == |versions|
      ensures trace == old(trace) + [Call.CreateVersion]
    {
      versions := versions + [intents];
      version := |versions|;
      trace := trace + [Call.CreateVersion];
    }

    method ListBotAliases() returns (found: map<string, RemoteAlias>)
      modifies this`trace
      ensures found == aliases
      ensures trace == old(trace) + [Call.ListAliases]
    {
      found := aliases;
      trace := trace + [Call.ListAliases];
    }

    method CreateBotAlias(request: AliasRequest) returns (id: Id)
      requires Valid()
      modifies this`aliases, this`nextId, this`trace
      ensures Valid()
      // The id is fresh: no bot, intent or alias had it.
      ensures old(Unused(id))
      ensures id == old(nextId) && nextId == id + 1
      ensures aliases == old(aliases)[request.botAliasName := RemoteAlias(id, request)]
      ensures trace == old(trace) + [Call.CreateAlias(request.botAliasName, request.logging.Some?)]
    {
      id := nextId;
      nextId := nextId + 1;
      aliases := aliases[request.botAliasName := RemoteAlias(id, request)];
      trace := trace + [Call.CreateAlias(request.botAliasName, request.logging.Some?)];
    }

    /** `updateBotAlias`: the alias keeps its id and name and takes the new settings. */
    method UpdateBotAlias(id: Id, request: AliasRequest)
      requires Valid()
      requires request.botAliasName in aliases && aliases[request.botAliasName].botAliasId == id
      modifies this`aliases, this`trace
      ensures Valid()
      ensures aliases == old(aliases)[request.botAliasName := RemoteAlias(id, request)]
      ensures trace == old(trace) + [Call.UpdateAlias(request.botAliasName, request.logging.Some?)]
    {
      aliases := aliases[request.botAliasName := RemoteAlias(id, request)];
      trace := trace + [Call.UpdateAlias(request.botAliasName, request.logging.Some?)];
    }

    /** `describeLogGroups` with a name prefix; its pages are concatenated into one set. */
    method DescribeLogGroups(prefix: string) returns (found: set<string>)
      modifies this`trace
      ensures found == set g | g in logGroups && prefix <= g
      ensures trace == old(trace) + [Call.DescribeLogGroups(prefix)]
    {
      found := set g | g in logGroups && prefix <= g;
      trace := trace + [Call.DescribeLogGroups(prefix)];
    }

    method CreateLogGroup(name: string)
      modifies this`logGroups, this`trace
      ensures logGroups == old(logGroups) + {name}
      ensures trace == old(trace) + [Call.CreateLogGroup(name)]
    {
      logGroups := logGroups + {name};
      trace := trace + [Call.CreateLogGroup(name)];
    }

    /** The resource policy that lets the contact-center instance call the alias `arn`. */
    method GrantAccess(arn: string)
      modifies this`grants, this`trace
      ensures grants == old(grants) + {arn}
      ensures trace == old(trace) + [Call.GrantAccess(arn)]
    {
      grants := grants + {arn};
      trace := trace + [Call.GrantAccess(arn)];
    }
  }

  /** The bots the service reports for an exact-name filter, in listing order. */
  function Matching(bots: seq<BotSummary>, name: string): (r: seq<BotSummary>)
    ensures |r| <= |bots|
    ensures forall b :: b in r <==> b in bots && b.botName == name
  {
    if bots == [] then []
    else
      var last := bots[|bots| - 1];
      Matching(bots[..|bots| - 1], name) + (if last.botName == name then [last] else [])
  }
}

=== FILE: status.dfy ===
/**
 * The deployment status record the script fills in as it goes
 * (`botConfig.status`), returned to the caller on success and on failure.
 */
module Status {

  import opened Common
  import opened Remote

  class DeploymentStatus {
    const fullBotName: string
    var verified: bool
    var created: bool
    var botId: Option<Id>
    var botVersion: Option<Id>
    var challengerAliasId: Option<Id>
    var productionAliasId: Option<Id>
    /** The five conversation-log fields, written together. */
    var logging: Option<LogSettings>

    constructor (fullBotName: string)
      ensures this.fullBotName == fullBotName
      ensures !verified && !created
      ensures botId == None && botVersion == None
      ensures challengerAliasId == None && productionAliasId == None && logging == None
    {
      this.fullBotName := fullBotName;
      verified, created := false, false;
      botId, botVersion := None, None;
      challengerAliasId, productionAliasId, logging := None, None, None;
    }
  }
}

=== FILE: testing.dfy ===
/**
 * `testBot`: every test utterance of every intent is sent to the challenger
 * alias, the top interpretation is scored against the intent under test,
 * failures are counted per intent and in total, and any failure stops the
 * deployment before promotion. The inference service is a parameter,
 * `recognize`, from test text to the interpretations it returns.
 */
module Testing {

  import opened Common

  /** One interpretation: the predicted intent and, when present, its NLU confidence score. */
  datatype Interpretation = Interpretation(intentName: string, confidence: Option<real>)

  datatype Cause = LowConfidence(score: real) | IntentMismatch(predicted: string)

  /**
   * How one test ends. `Aborted` is the script's own crash: reading the top
   * interpretation of an empty response, or the score of an absent
   * confidence, raises a TypeError that ends the test run.
   */
  datatype Classification = Success | Failure(cause: Cause) | Aborted

  datatype Problem = Problem(text: string, cause: Cause)

  /** The per-intent tally the script reports. */
  datatype IntentResult = IntentResult(intent: string, success: nat, fail: nat, problems: seq<Problem>)

  /** The fixed, exclusive confidence threshold of the test gate. */
  const ConfidenceThreshold: real := 0.7

  function Classify(response: seq<Interpretation>, expected: string): (c: Classification)
    ensures c.Success? <==>
      response != [] && response[0].intentName == expected
      && response[0].confidence.Some? && response[0].confidence.value > ConfidenceThreshold
    ensures c.Aborted? <==>
      response == [] || (response[0].intentName == expected && response[0].confidence.None?)
    ensures c.Failure? && c.cause.IntentMismatch? ==> c.cause.predicted == response[0].intentName != expected
    ensures c.Failure? && c.cause.LowConfidence? ==>
      response[0].intentName == expected && response[0].confidence == Some(c.cause.score)
      && c.cause.score <= ConfidenceThreshold
  {
    if response == [] then Aborted
    else
      var top := response[0];
      if top.intentName == expected then
        match top.confidence
        case Some(score) => if score > ConfidenceThreshold then Success else Failure(LowConfidence(score))
        case None => Aborted
      else Failure(IntentMismatch(top.intentName))
  }

  /** A correct intent at exactly 0.7 fails; just above it passes. */
  lemma ThresholdIsExclusive(name: string)
    ensures Classify([Interpretation(name, Some(0.7))], name) == Failure(LowConfidence(0.7))
    ensures Classify([Interpretation(name, Some(0.70001))], name) == Success
  {
  }

  function Scored(intent: IntentSpec, text: string, recognize: string -> seq<Interpretation>): Classification
  {
    Classify(recognize(text), intent.name)
  }

  /** Every test of `intent` succeeds. */
  ghost predicate IntentPasses(intent: IntentSpec, recognize: string -> seq<Interpretation>)
  {
    forall t :: 0 <= t < |intent.tests| ==> Scored(intent, intent.tests[t], recognize).Success?
  }

  /** No test of `intent` crashes the run. */
  ghost predicate IntentRuns(intent: IntentSpec, recognize: string -> seq<Interpretation>)
  {
    forall t :: 0 <= t < |intent.tests| ==> !Scored(intent, intent.tests[t], recognize).Aborted?
  }

  /** Every test of every intent succeeds. */
  ghost predicate AllPass(intents: seq<IntentSpec>, recognize: string -> seq<Interpretation>)
  {
    forall i :: 0 <= i < |intents| ==> IntentPasses(intents[i], recognize)
  }

  /** Some test crashes the run. */
  ghost predicate SomeAborted(intents: seq<IntentSpec>, recognize: string -> seq<Interpretation>)
  {
    exists i :: 0 <= i < |intents| && !IntentRuns(intents[i], recognize)
  }

  /** The number of failing tests among `tests` for `intent`. */
  function FailuresIn(intent: IntentSpec, tests: seq<string>, recognize: string -> seq<Interpretation>): nat
  {
    if tests == [] then 0
    else FailuresIn(intent, tests[..|tests| - 1], recognize)
         + (if Scored(intent, tests[|tests| - 1], recognize).Failure? then 1 else 0)
  }

  /** When no test crashes, an intent has no failures iff every one of its tests succeeds. */
  lemma {:induction false} NoFailuresIffAllSucceed(intent: IntentSpec, tests: seq<string>, recognize: string -> seq<Interpretation>)
    requires forall t :: 0 <= t < |tests| ==> !Scored(intent, tests[t], recognize).Aborted?
    ensures FailuresIn(intent, tests, recognize) == 0 <==>
      forall t :: 0 <= t < |tests| ==> Scored(intent, tests[t], recognize).Success?
  {
    if tests != [] {
      var n := |tests| - 1;
      assert forall t :: 0 <= t < n ==> tests[..n][t] == tests[t];
      NoFailuresIffAllSucceed(intent, tests[..n], recognize);
    }
  }

  /** Scoring one more test adds one failure exactly when that test fails. */
  lemma FailuresInStep(intent: IntentSpec, tests: seq<string>, t: nat, recognize: string -> seq<Interpretation>)
    requires t < |tests|
    ensures FailuresIn(intent, tests[..t + 1], recognize) ==
      FailuresIn(intent, tests[..t], recognize) + if Scored(intent, tests[t], recognize).Failure? then 1 else 0
  {
    assert tests[..t + 1][..t] == tests[..t];
  }

  /** The total of the per-intent failure counts. */
  function TotalFailures(results: seq<IntentResult>): nat
  {
    if results == [] then 0 else TotalFailures(results[..|results| - 1]) + results[|results| - 1].fail
  }

  /** The tally of one intent is what its tests say. */
  ghost predicate Tallied(result: IntentResult, intent: IntentSpec, recognize: string -> seq<Interpretation>)
  {
    && result.intent == intent.name
    && result.success + result.fail == |intent.tests|
    && result.fail == |result.problems|
    && result.fail == FailuresIn(intent, intent.tests, recognize)
  }

  /** When no test crashes, the run has no failure iff every test of every intent succeeds. */
  lemma {:induction false} NoneFailedIffAllPass(results: seq<IntentResult>, intents: seq<IntentSpec>,
                                                recognize: string -> seq<Interpretation>)
    requires |results| == |intents|
    requires forall k :: 0 <= k < |intents| ==> Tallied(results[k], intents[k], recognize)
    requires forall k :: 0 <= k < |intents| ==> IntentRuns(intents[k], recognize)
    ensures TotalFailures(results) == 0 <==> AllPass(intents, recognize)
  {
    if results != [] {
      var n := |results| - 1;
      NoneFailedIffAllPass(results[..n], intents[..n], recognize);
      NoFailuresIffAllSucceed(intents[n], intents[n].tests, recognize);
      assert AllPass(intents, recognize) <==> AllPass(intents[..n], recognize) && IntentPasses(intents[n], recognize);
    }
  }

  /**
   * The inner loop of `testBot`: the tests of one intent. `abortedAt` is the
   * text of the first test that crashed the run, if any.
   */
  method TestIntent(intentToTest: IntentSpec, recognize: string -> seq<Interpretation>)
    returns (intentResult: IntentResult, abortedAt: Option<string>)
    ensures abortedAt.None? <==> IntentRuns(intentToTest, recognize)
    ensures abortedAt.Some? ==>
      exists t :: 0 <= t < |intentToTest.tests| && intentToTest.tests[t] == abortedAt.value
        && Scored(intentToTest, intentToTest.tests[t], recognize).Aborted?
        && forall u :: 0 <= u < t ==> !Scored(intentToTest, intentToTest.tests[u], recognize).Aborted?
    ensures abortedAt.None? ==> Tallied(intentResult, intentToTest, recognize)
    ensures abortedAt.None? ==> (intentResult.fail == 0 <==> IntentPasses(intentToTest, recognize))
  {
    intentResult := IntentResult(intentToTest.name, 0, 0, []);
    var t := 0;
    while t < |intentToTest.tests|
      invariant 0 <= t <= |intentToTest.tests|
      invariant intentResult.intent == intentToTest.name
      invariant intentResult.success + intentResult.fail == t
      invariant intentResult.fail == |intentResult.problems|
      invariant intentResult.fail == FailuresIn(intentToTest, intentToTest.tests[..t], recognize)
      invariant forall u :: 0 <= u < t ==> !Scored(intentToTest, intentToTest.tests[u], recognize).Aborted?
    {
      var text := intentToTest.tests[t];
      var verdict := Classify(recognize(text), intentToTest.name);
      FailuresInStep(intentToTest, intentToTest.tests, t, recognize);
      match verdict {
        case Success =>
          intentResult := intentResult.(success := intentResult.success + 1);
        case Failure(cause) =>
          intentResult := intentResult.(fail := intentResult.fail + 1,
                                        problems := intentResult.problems + [Problem(text, cause)]);
        case Aborted =>
          abortedAt := Some(text);
          return;
      }
      t := t + 1;
    }
    assert intentToTest.tests[..t] == intentToTest.tests;
    NoFailuresIffAllSucceed(intentToTest, intentToTest.tests, recognize);
    abortedAt := None;
  }

  /**
   * The test run. It fails iff some test does not succeed: with a crash
   * (the first crashing test ends it) or with `TestsFailed` carrying the
   * total, which is the sum of the per-intent failure counts.
   */
  method TestBot(intents: seq<IntentSpec>, recognize: string -> seq<Interpretation>)
    returns (results: seq<IntentResult>, failures: nat, r: Outcome<DeployError>)
    ensures r.Pass? <==> AllPass(intents, recognize)
    ensures r.Fail? ==> r.error.TestsFailed? || r.error.TestAborted?
    ensures (r.Fail? && r.error.TestAborted?) <==> SomeAborted(intents, recognize)
    ensures r.Fail? && r.error.TestsFailed? ==> r.error.failures == failures > 0
    // A crash names the first crashing test: every earlier test ran.
    ensures r.Fail? && r.error.TestAborted? ==>
      exists i, t :: 0 <= i < |intents| && 0 <= t < |intents[i].tests|
        && intents[i].tests[t] == r.error.text
        && Scored(intents[i], intents[i].tests[t], recognize).Aborted?
        && (forall k :: 0 <= k < i ==> IntentRuns(intents[k], recognize))
        && forall u :: 0 <= u < t ==> !Scored(intents[i], intents[i].tests[u], recognize).Aborted?
    ensures !SomeAborted(intents, recognize) ==>
      && |results| == |intents|
      && failures == TotalFailures(results)
      && forall i :: 0 <= i < |intents| ==> Tallied(results[i], intents[i], recognize)
  {
    failures := 0;
    results := [];
    var i := 0;
    while i < |intents|
      invariant 0 <= i <= |intents|
      invariant |results| == i
      invariant forall k :: 0 <= k < i ==> Tallied(results[k], intents[k], recognize)
      invariant failures == TotalFailures(results)
      invariant forall k :: 0 <= k < i ==> IntentRuns(intents[k], recognize)
    {
      var intentResult, abortedAt := TestIntent(intents[i], recognize);
      if abortedAt.Some? {
        r := Fail(TestAborted(abortedAt.value));
        return;
      }
      assert (results + [intentResult])[..i] == results;
      results := results + [intentResult];
      failures := failures + intentResult.fail;
      i := i + 1;
    }
    NoneFailedIffAllPass(results, intents, recognize);
    if failures > 0 {
      r := Fail(TestsFailed(failures));
    } else {
      r := Pass;
    }
  }
}

=== FILE: text.dfy ===
/**
 * String helpers of the deployment script: the case folding used by the
 * duplicate checks, the full bot name and the bot alias ARN.
 */
module Text {

  import opened Common

  /** `toLowerCase` on one character; only the ASCII letters A-Z change. */
  function LowerChar(c: char): char
  {
    if 'A' <= c <= 'Z' then (c as int + 32) as char else c
  }

  /** `toLowerCase` on a string, character by character. */
  function Lower(s: string): (r: string)
    ensures |r| == |s|
    ensures forall i :: 0 <= i < |s| ==> r[i] == LowerChar(s[i])
  {
    if s == [] then [] else [LowerChar(s[0])] + Lower(s[1..])
  }

  /** Folding is a normalisation: folding a folded string changes nothing. */
  lemma LowerIdempotent(s: string)
    ensures Lower(Lower(s)) == Lower(s)
  {
    assert forall i :: 0 <= i < |s| ==> LowerChar(LowerChar(s[i])) == LowerChar(s[i]);
  }

  /** The deployed bot's name: `<stage>-<bot name>`. */
  function GetBotName(stage: string, name: string): (r: string)
    ensures |r| == |stage| + 1 + |name|
    ensures r[..|stage|] == stage && r[|stage|] == '-' && r[|stage| + 1..] == name
  {
    stage + "-" + name
  }

  /** Recovers the configured bot name from a full name deployed for `stage`. */
  function SplitBotName(stage: string, fullName: string): Option<string>
  {
    if |fullName| > |stage| && fullName[..|stage|] == stage && fullName[|stage|] == '-'
    then Some(fullName[|stage| + 1..])
    else None
  }

  /** The stage prefix can always be taken off again, so distinct bots stay distinct per stage. */
  lemma BotNameRoundTrip(stage: string, name: string)
    ensures SplitBotName(stage, GetBotName(stage, name)) == Some(name)
  {
  }

  lemma BotNameInjective(stage: string, a: string, b: string)
    requires GetBotName(stage, a) == GetBotName(stage, b)
    ensures a == b
  {
    BotNameRoundTrip(stage, a);
    BotNameRoundTrip(stage, b);
  }

  /** The ARN of a bot alias: `arn:aws:lex:<region>:<account>:bot-alias/<bot id>/<alias id>`. */
  function CreateBotAliasArn(region: string, accountNumber: string, botId: string, botAliasId: string): (r: string)
    ensures "arn:aws:lex:" <= r && |r| > |botAliasId|
    ensures r[|r| - |botAliasId|..] == botAliasId
  {
    "arn:aws:lex:" + region + ":" + accountNumber + ":bot-alias/" + botId + "/" + botAliasId
  }

  /** The text after the last `/`, or the whole string when it has none. */
  function LastSegment(s: string): (r: string)
    ensures |r| <= |s| && r == s[|s| - |r|..]
    ensures '/' !in r
    ensures |r| < |s| ==> s[|s| - |r| - 1] == '/'
  {
    if s == [] || s[|s| - 1] == '/' then []
    else LastSegment(s[..|s| - 1]) + [s[|s| - 1]]
  }

  lemma {:induction false} LastSegmentAfterSlash(prefix: string, tail: string)
    requires '/' !in tail
    ensures LastSegment(prefix + "/" + tail) == tail
  {
    if tail != [] {
      var s := prefix + "/" + tail;
      assert s[..|s| - 1] == prefix + "/" + tail[..|tail| - 1];
      LastSegmentAfterSlash(prefix, tail[..|tail| - 1]);
    } else {
      assert prefix + "/" + tail == prefix + "/";
    }
  }

  /** The alias id can be read back from the ARN that names it. */
  lemma AliasArnNamesAlias(region: string, accountNumber: string, botId: string, botAliasId: string)
    requires '/' !in botAliasId
    ensures LastSegment(CreateBotAliasArn(region, accountNumber, botId, botAliasId)) == botAliasId
  {
    var p := "arn:aws:lex:" + region + ":" + accountNumber + ":bot-alias/" + botId;
    assert CreateBotAliasArn(region, accountNumber, botId, botAliasId) == p + "/" + botAliasId;
    LastSegmentAfterSlash(p, botAliasId);
  }

  function Digit(d: nat): (c: char)
    requires d < 10
    ensures '0' <= c <= '9'
  {
    ('0' as int + d) as char
  }

  /** Decimal rendering of an identifier minted by the remote service. */
  function DecimalText(n: nat): (r: string)
    ensures |r| > 0
    ensures forall i :: 0 <= i < |r| ==> '0' <= r[i] <= '9'
  {
    if n < 10 then [Digit(n)] else DecimalText(n / 10) + [Digit(n % 10)]
  }
}

=== FILE: validator.dfy ===
/**
 * `verifyBotConfig`: the bot document is rejected when two intent names, or
 * two utterances anywhere in the bot, are equal after lower-casing. The
 * check reads the document only; it runs before any remote call.
 */
module Validator {

  import opened Common
  import opened Text

  /** The intent names, in document order. */
  function Names(intents: seq<IntentSpec>): (r: seq<string>)
    ensures |r| == |intents|
    ensures forall i :: 0 <= i < |intents| ==> r[i] == intents[i].name
  {
    seq(|intents|, i requires 0 <= i < |intents| => intents[i].name)
  }

  /** Every utterance of the bot, intent after intent, in document order. */
  function AllUtterances(intents: seq<IntentSpec>): seq<string>
  {
    if intents == [] then []
    else AllUtterances(intents[..|intents| - 1]) + intents[|intents| - 1].utterances
  }

  /** No two entries are equal after lower-casing. */
  ghost predicate DistinctFolded(xs: seq<string>)
  {
    forall i, j :: 0 <= i < j < |xs| ==> Lower(xs[i]) != Lower(xs[j])
  }

  /** The lower-cased entries: the contents of the script's `Set`s. */
  function Folded(xs: seq<string>): set<string>
  {
    set x | x in xs :: Lower(x)
  }

  /** The invariant the document must satisfy: names and utterances are unique up to case. */
  ghost predicate ValidConfig(intents: seq<IntentSpec>)
  {
    DistinctFolded(Names(intents)) && DistinctFolded(AllUtterances(intents))
  }

  /** Exact-name uniqueness, which the remote service relies on. */
  ghost predicate DistinctNames(intents: seq<IntentSpec>)
  {
    forall i, j :: 0 <= i < j < |intents| ==> intents[i].name != intents[j].name
  }

  lemma ValidHasDistinctNames(intents: seq<IntentSpec>)
    requires ValidConfig(intents)
    ensures DistinctNames(intents)
  {
    forall i, j | 0 <= i < j < |intents|
      ensures intents[i].name != intents[j].name
    {
      assert Lower(Names(intents)[i]) != Lower(Names(intents)[j]);
    }
  }

  lemma FoldedSnoc(xs: seq<string>, y: string)
    ensures Folded(xs + [y]) == Folded(xs) + {Lower(y)}
  {
    var l, r := Folded(xs + [y]), Folded(xs) + {Lower(y)};
    forall z | z in l ensures z in r {
      var x :| x in xs + [y] && z == Lower(x);
    }
    forall z | z in r ensures z in l {
      if z != Lower(y) {
        var x :| x in xs && z == Lower(x);
        assert x in xs + [y];
      } else {
        assert y in xs + [y];
      }
    }
  }

  /** Appending one entry keeps the entries distinct iff its folding is new. */
  lemma DistinctSnoc(xs: seq<string>, y: string)
    ensures DistinctFolded(xs + [y]) <==> DistinctFolded(xs) && Lower(y) !in Folded(xs)
  {
    var s := xs + [y];
    if Lower(y) in Folded(xs) {
      var x :| x in xs && Lower(x) == Lower(y);
      var i :| 0 <= i < |xs| && xs[i] == x;
      assert s[i] == x && s[|xs|] == y;
    } else if DistinctFolded(xs) {
      forall i, j | 0 <= i < j < |s| ensures Lower(s[i]) != Lower(s[j]) {
        if j == |xs| {
          assert s[i] in xs;
        } else {
          assert s[i] == xs[i] && s[j] == xs[j];
        }
      }
    } else {
      var i, j :| 0 <= i < j < |xs| && Lower(xs[i]) == Lower(xs[j]);
      assert s[i] == xs[i] && s[j] == xs[j];
    }
  }

  lemma DistinctPrefix(xs: seq<string>, ys: seq<string>)
    requires ys <= xs && DistinctFolded(xs)
    ensures DistinctFolded(ys)
  {
    forall i, j | 0 <= i < j < |ys| ensures Lower(ys[i]) != Lower(ys[j]) {
      assert ys[i] == xs[i] && ys[j] == xs[j];
    }
  }

  lemma AllUtterancesStep(intents: seq<IntentSpec>, k: nat)
    requires k < |intents|
    ensures AllUtterances(intents[..k + 1]) == AllUtterances(intents[..k]) + intents[k].utterances
  {
    assert intents[..k + 1][..k] == intents[..k];
  }

  lemma {:induction false} AllUtterancesPrefix(intents: seq<IntentSpec>, k: nat)
    requires k <= |intents|
    ensures AllUtterances(intents[..k]) <= AllUtterances(intents)
  {
    if k < |intents| {
      var n := |intents| - 1;
      assert intents[..n][..k] == intents[..k];
      AllUtterancesPrefix(intents[..n], k);
    } else {
      assert intents[..k] == intents;
    }
  }

  lemma NameClashInvalidates(intents: seq<IntentSpec>, k: nat)
    requires k < |intents|
    requires Lower(intents[k].name) in Folded(Names(intents[..k]))
    ensures !ValidConfig(intents)
  {
    DistinctSnoc(Names(intents[..k]), intents[k].name);
    assert Names(intents[..k]) + [intents[k].name] <= Names(intents);
    if DistinctFolded(Names(intents)) {
      DistinctPrefix(Names(intents), Names(intents[..k]) + [intents[k].name]);
    }
  }

  lemma UtteranceClashInvalidates(intents: seq<IntentSpec>, k: nat, t: nat)
    requires k < |intents| && t < |intents[k].utterances|
    requires Lower(intents[k].utterances[t]) in Folded(AllUtterances(intents[..k]) + intents[k].utterances[..t])
    ensures !ValidConfig(intents)
  {
    var u := intents[k].utterances;
    var pre := AllUtterances(intents[..k]) + u[..t];
    DistinctSnoc(pre, u[t]);
    AllUtterancesStep(intents, k);
    AllUtterancesPrefix(intents, k + 1);
    assert pre + [u[t]] == AllUtterances(intents[..k]) + u[..t + 1];
    assert pre + [u[t]] <= AllUtterances(intents);
    if DistinctFolded(AllUtterances(intents)) {
      DistinctPrefix(AllUtterances(intents), pre + [u[t]]);
    }
  }

  /**
   * The inner pass of `verifyBotConfig` over the utterances of intent `k`,
   * adding each folded utterance to `seen` unless it is already there.
   */
  method CheckUtterances(intents: seq<IntentSpec>, k: nat, seen: set<string>)
    returns (r: Outcome<DeployError>, seen': set<string>)
    requires k < |intents|
    requires seen == Folded(AllUtterances(intents[..k])) && DistinctFolded(AllUtterances(intents[..k]))
    ensures r.Pass? ==>
      seen' == Folded(AllUtterances(intents[..k + 1])) && DistinctFolded(AllUtterances(intents[..k + 1]))
    ensures r.Fail? ==> !ValidConfig(intents) && r.error.DuplicateUtterance? && r.error.intent == intents[k].name
    ensures r.Fail? ==>
      exists t :: 0 <= t < |intents[k].utterances| && intents[k].utterances[t] == r.error.utterance
        && DistinctFolded(AllUtterances(intents[..k]) + intents[k].utterances[..t])
        && Lower(intents[k].utterances[t]) in Folded(AllUtterances(intents[..k]) + intents[k].utterances[..t])
  {
    var intent := intents[k];
    ghost var before := AllUtterances(intents[..k]);
    seen' := seen;
    var t := 0;
    while t < |intent.utterances|
      invariant 0 <= t <= |intent.utterances|
      invariant seen' == Folded(before + intent.utterances[..t])
      invariant DistinctFolded(before + intent.utterances[..t])
    {
      var utterance := intent.utterances[t];
      var normalisedUtterance := Lower(utterance);
      if normalisedUtterance in seen' {
        UtteranceClashInvalidates(intents, k, t);
        r := Fail(DuplicateUtterance(utterance, intent.name));
        return;
      }
      assert before + intent.utterances[..t + 1] == (before + intent.utterances[..t]) + [utterance];
      DistinctSnoc(before + intent.utterances[..t], utterance);
      FoldedSnoc(before + intent.utterances[..t], utterance);
      seen' := seen' + {normalisedUtterance};
      t := t + 1;
    }
    AllUtterancesStep(intents, k);
    assert intent.utterances[..t] == intent.utterances;
    r := Pass;
  }

  /**
   * The two nested passes of `verifyBotConfig`. The error names the later
   * of the two clashing entries, and everything before it was still valid.
   */
  method VerifyBotConfig(intents: seq<IntentSpec>) returns (r: Outcome<DeployError>)
    ensures r.Pass? <==> ValidConfig(intents)
    ensures r.Fail? ==> r.error.DuplicateIntentName? || r.error.DuplicateUtterance?
    ensures r.Fail? && r.error.DuplicateIntentName? ==>
      exists j :: 0 <= j < |intents| && intents[j].name == r.error.intent
        && ValidConfig(intents[..j]) && Lower(intents[j].name) in Folded(Names(intents[..j]))
    ensures r.Fail? && r.error.DuplicateUtterance? ==>
      exists j, t :: 0 <= j < |intents| && 0 <= t < |intents[j].utterances|
        && intents[j].name == r.error.intent && intents[j].utterances[t] == r.error.utterance
        && DistinctFolded(Names(intents[..j + 1]))
        && DistinctFolded(AllUtterances(intents[..j]) + intents[j].utterances[..t])
        && Lower(intents[j].utterances[t]) in Folded(AllUtterances(intents[..j]) + intents[j].utterances[..t])
  {
    var uniqueIntentNames: set<string> := {};
    var uniqueUtterances: set<string> := {};
    var k := 0;
    while k < |intents|
      invariant 0 <= k <= |intents|
      invariant uniqueIntentNames == Folded(Names(intents[..k]))
      invariant uniqueUtterances == Folded(AllUtterances(intents[..k]))
      invariant ValidConfig(intents[..k])
    {
      var intent := intents[k];
      var normalisedIntentName := Lower(intent.name);
      if normalisedIntentName in uniqueIntentNames {
        NameClashInvalidates(intents, k);
        r := Fail(DuplicateIntentName(intent.name));
        return;
      }
      assert Names(intents[..k + 1]) == Names(intents[..k]) + [intent.name];
      DistinctSnoc(Names(intents[..k]), intent.name);
      FoldedSnoc(Names(intents[..k]), intent.name);
      uniqueIntentNames := uniqueIntentNames + {normalisedIntentName};
      assert DistinctFolded(Names(intents[..k + 1]));
      r, uniqueUtterances := CheckUtterances(intents, k, uniqueUtterances);
      if r.Fail? {
        ghost var t :| 0 <= t < |intent.utterances| && intent.utterances[t] == r.error.utterance
          && DistinctFolded(AllUtterances(intents[..k]) + intent.utterances[..t])
          && Lower(intent.utterances[t]) in Folded(AllUtterances(intents[..k]) + intent.utterances[..t]);
        assert intents[k] == intent;
        return;
      }
      k := k + 1;
    }
    assert intents[..k] == intents;
    r := Pass;
  }
}
